=== FILE: README.md ===
# kofi configuration, modelled in Dafny

kofi is a small network service that validates and generates Italian fiscal codes over REST
and GraphQL. Its configuration is read from a YAML file, and command-line options then
override parts of it. This project models that pipeline and proves properties of it:

- `read_config` finds the configuration file. It tries `./kofi.yml`, then `~/kofi.yml`, then
  `/etc/kofi/kofi.yml`. An explicit path wins over the search.
- Each of the four fields of `DEFAULT` (`host`, `port`, `log`, `graphiql`) is validated by its
  validator, in that order. A missing field or a field written as `None` takes its default
  value, which is not validated. No file at all means `DEFAULT` as it stands.
- `merge_configs` combines the file configuration with the command-line overrides. The keys of
  the file side drive the result, and the command-line value wins on every key both sides have,
  including the keys inside the nested log settings.
- The console entry point builds those overrides from its options and starts the service with
  `merge_configs(read_config(config_path), shell_config)`.

Modules:

- `Wrappers`: `Option` and `Result`.
- `Strings`: Python string operations. kofi itself uses `lower`, `upper` and `str(n)`; the
  substring test `in` is what the repository's tests apply to error messages; `split`, `join`
  and `int(s)` are what CPython's `ipaddress` applies to a host.
- `Paths`: `os.path.join`, `os.path.dirname` and `os.path.exists`. Which paths exist is given
  as a set.
- `IpAddress`: the conditions under which `ipaddress.IPv4Address` and `ipaddress.IPv6Address`
  accept a string, following CPython 3.9.5 and later (no leading zeros in IPv4 octets; an IPv6
  scope id is allowed).
- `Values`: the untyped values a YAML document holds.
- `Validators`: the four field validators and the error they raise.
- `Configuration`: `DEFAULT`, the search for the file, `read_config` and `merge_configs`.
- `ValidatorProperties` and `ConfigProperties`: lemmas about the two modules above.
- `Cli`: the console entry point's handling of its options.

Validation errors are `ValueError(message)`. The messages follow the source's f-strings
character for character, including the indentation that the line continuations leave inside
the message. A value of the wrong Python type, which makes the source raise `AttributeError`,
`TypeError` or `KeyError`, is a `Crash`.

Two consequences of the order of the steps in the code:

- The overrides are merged after `read_config` has validated the file side, and they are never
  validated themselves: `Cli.ShellPortNotValidated` and `Cli.LevelLostWithoutLevelOption` show
  results that are not resolved configurations.
- With no configuration file, `read_config` returns `DEFAULT` and the overrides are still merged
  into it (`Cli.OverridesWithoutFile`).

Where the code and the repository's tests disagree, the model follows the code:

- The expected results in tests/test_conf.py:27-52 have no `graphiql` key. `read_config` always
  adds one, because `graphiql` is in `DEFAULT`, so the lemmas about those documents include
  `graphiql` as `False`.
- tests/test_cli.py expects `--port` to be declared as an integer and expects the options to be
  validated by click. kofi/cli.py:16 declares no type and validates nothing, so a port given on
  the command line reaches `merge_configs` as text.

The rejected IPv6 hosts of the tests (`1:2:3:4:5:6:7:8:9`, `12345::1`) and the accepted one
(`2001:ff:2::1`) are written as joins of their groups. This states the same string but keeps
the proof from evaluating the whole literal.

## Model

| member | source | states |
|---|---|---|
| Validators.ValidateHost | kofi/config.py:71-82 | accepted exactly when the value is text that is "localhost" in any letter case, an IPv4 address or an IPv6 address; an accepted host is returned as written, not normalised; a rejected text gives a `ValueError` that carries "is invalid in configuration" and the host itself; a non-text value is a crash |
| Validators.ValidatePort | kofi/config.py:85-89 | accepted exactly when the value is an integer strictly between 0 and 65535, and then returned unchanged; a rejected integer gives a `ValueError` that carries the phrase and the integer's decimal text; a non-integer is a crash |
| Validators.ValidateLog | kofi/config.py:92-115 | a mapping is accepted exactly when its level (default "ERROR") is text whose upper case is one of the four admitted levels, its syslog (default False) is a boolean, and its log file is falsy or a text whose directory exists. On success: the level is the upper case of the given level (default "ERROR") and is one of the four admitted levels; the syslog flag is the given boolean (default False); a log file is kept exactly when a truthy one is given, and its directory exists. The error cases, in the source's order: a non-mapping or a non-text level crashes; a level outside the four is rejected with a `ValueError` carrying "is invalid in configuration", the upper-cased level and the admitted values; a non-boolean syslog is rejected with the phrase, the value and the allowed values; a log file whose directory is missing is rejected with the phrase, the path and "Base directory does not exist."; a truthy log file that is not text crashes |
| Validators.ValidateGraphiql | kofi/config.py:118-123 | `None` gives False, a boolean is kept, anything else is rejected with a message that carries the phrase and the value |
| Validators.InvalidMentions | kofi/config.py:82 | the validation message contains the fixed phrase, the value shown and the hint |
| Validators.MentionsTail | kofi/config.py:95-98 | a message that contains an indented hint contains the hint's text |
| IpAddress.IsIPv6 | kofi/config.py:79 | `IPv6Address(host)` does not raise: no '/', a scope id that is absent or non-empty, at least three ':'-separated parts, a valid dotted-quad tail if there is one, at most nine parts after it is expanded, and the layout check of `HextetLayout` |
| IpAddress.ParseIPv4 | kofi/config.py:75 | an accepted IPv4 text yields four octet values, each at most 255 |
| IpAddress.OctetOfValue | kofi/config.py:75 | the decimal text of every value up to 255 is a valid octet and reads back as that value |
| IpAddress.ParseFormatIPv4 | kofi/config.py:75 | the dotted-quad text of any four octet values is accepted and parses back to those values |
| IpAddress.FormatParseIPv4 | kofi/config.py:75 | an accepted IPv4 text is the printed form of its octets, so each address has a single accepted spelling |
| IpAddress.QuadAccepted | kofi/config.py:75 | four valid octets joined by dots form an accepted IPv4 address |
| IpAddress.LayoutDecides | kofi/config.py:79 | for at least three groups with no ':', '/', '%' or dotted tail, acceptance of the colon-joined text holds if and only if there are at most nine parts and the group layout check passes |
| IpAddress.IPv6FullForm | kofi/config.py:79 | eight hextets separated by colons are accepted |
| IpAddress.CompressedLayout | kofi/config.py:79 | hextets around a single inner empty part, with at most eight parts, pass the layout check |
| IpAddress.IPv6Compressed | kofi/config.py:79 | groups, "::", groups, with at most seven groups in all, are accepted |
| IpAddress.NatToHexShort | kofi/config.py:79 | a value below 65536 prints as at most four hex digits, so a half of an embedded IPv4 address is a valid group |
| IpAddress.EmbeddedQuadGroups | kofi/config.py:79 | a dotted-quad last part is replaced by two valid groups, the high and the low 16 bits of the address, the other parts unchanged |
| IpAddress.IPv4MappedAccepted | kofi/config.py:79 | the IPv4-mapped form "::ffff:a.b.c.d" is accepted for every dotted quad |
| Paths.Exists | kofi/config.py:59 | `os.path.exists`: a path in the set of existing paths; the empty path never exists |
| Paths.JoinKeepsParts | kofi/config.py:127-128 | the second component is a suffix of the result; an absolute second component replaces the first; otherwise the first component is a prefix |
| Paths.DirName | kofi/config.py:108 | `os.path.dirname`: the directory is a prefix of the path |
| Paths.DirNameOfJoin | kofi/config.py:108 | the directory of a path joined from a directory and a file name is that directory |
| Paths.DirNameOfBareName | kofi/config.py:108 | a file name without '/' has the empty directory |
| Paths.DirNameAtRoot | kofi/config.py:108 | a file directly under "/" has "/" as its directory |
| Configuration.Default | kofi/config.py:133 | `DEFAULT`: host "0.0.0.0", port 1312, the default log settings, GraphiQL off |
| Validators.DefaultLog | kofi/config.py:132 | `DEFAULT_LOG_CONF`: level ERROR, syslog off, no log file |
| Configuration.DefaultHostValid | kofi/config.py:133 | the default host "0.0.0.0" is a valid host |
| Configuration.DefaultWellFormed | kofi/config.py:132-133 | `DEFAULT` has exactly the four field keys and every default passes its field's check |
| Configuration.LogToRawWellFormed | kofi/config.py:105-115 | the dictionary `_validate_log` returns has "level" and "syslog", "log_file" only when one is set, and valid values |
| Configuration.Validate | kofi/config.py:135-140 | whatever a field's validator returns has the type and range that field requires |
| Configuration.ValidateEntry | kofi/config.py:65-68 | an absent or `None` entry takes the field's default without validation; any other entry goes through the field's validator |
| Configuration.EntryValid | kofi/config.py:65-68 | a field that validates or defaults holds a valid value |
| Configuration.ValidateFields | kofi/config.py:48-50 | the validation loop succeeds if and only if every field succeeds; the result then has exactly the fields' keys, each holding its field's outcome |
| Configuration.ValidateFieldsFirstFailure | kofi/config.py:48-50 | a failing loop raises the error of the first failing field, after every earlier field has succeeded |
| Configuration.ValidatedWellFormed | kofi/config.py:44-50 | whatever the document holds, a successful validation of all fields yields a resolved configuration |
| Configuration.FirstExisting | kofi/config.py:57-62 | the result is "" if and only if no candidate exists; otherwise it is the first candidate that exists |
| Configuration.ReadConfig | kofi/config.py:38-54 | a successful read is a resolved configuration; with no path given and none found, or with an empty path, the result is `DEFAULT`; an explicit path that does not exist raises a non-validation error when it is opened |
| Configuration.SearchPath | kofi/config.py:126-130 | the candidates are three: `./kofi.yml` first, then `kofi.yml` joined to the home directory, `/etc/kofi/kofi.yml` last |
| Configuration.FindConf | kofi/config.py:57-62 | the search yields "" or one of the candidates, and that candidate exists |
| Configuration.ConfPath | kofi/config.py:42-43 | an explicit path is used as given; otherwise the search result, which is "" or an existing path |
| Configuration.MergeLog | kofi/config.py:26-31 | the merged log settings have exactly the file side's log keys |
| Configuration.MergeConfigs | kofi/config.py:15-35 | the result has exactly the file side's keys; every top-level key other than "log" takes the shell value when the shell has that key; the log settings are the file's unless the shell gives log settings, and then each of the file's log keys takes the shell's value when the shell has one |
| ConfigProperties.SearchOrder | kofi/config.py:126-130 | the search tries `./kofi.yml`, then `kofi.yml` in the home directory, then `/etc/kofi/kofi.yml`, and gives "" when none exists |
| ConfigProperties.MissingFileRaises | kofi/config.py:44-46 | an explicit non-empty path that does not exist makes `read_config` raise when it opens the file |
| ConfigProperties.SearchedFileIsRead | kofi/config.py:42-50 | a file the search found is opened and its document validated field by field |
| ConfigProperties.NoFileGivesDefault | kofi/config.py:42-52 | with no path given and none of the three candidates present, `read_config` returns `DEFAULT` |
| ConfigProperties.EmptyPathGivesDefault | kofi/config.py:44 | an explicit empty path is falsy: no search is made and `DEFAULT` is returned |
| ConfigProperties.DefaultValues | kofi/config.py:132-133 | the defaults are host 0.0.0.0, port 1312, log level ERROR without syslog or log file, and GraphiQL off, and together they form a resolved configuration |
| ConfigProperties.ReadConfigFieldwise | kofi/config.py:44-50 | with a file, `read_config` succeeds if and only if each field validates or defaults, and each field of the result is that field's outcome |
| ConfigProperties.ReadConfigFailureOrder | kofi/config.py:49-50 | a failing read raises the error of the first field, in the order host, port, log, graphiql, that fails |
| ConfigProperties.HostCheckedBeforePort | kofi/config.py:133 | a bad host is the error reported, whatever the other fields hold |
| ConfigProperties.ReadAsEntries | kofi/config.py:48-50 | when every field of the document yields the matching entry of a four-key configuration, that configuration is the result |
| ConfigProperties.EmptyDocumentGivesDefault | tests/test_conf.py:52 | an empty document reads as `DEFAULT` |
| ConfigProperties.PortOnlyDocument | tests/test_conf.py:51 | a document holding only a valid port reads as `DEFAULT` with that port |
| ConfigProperties.HostAndSyslogDocument | tests/test_conf.py:39-46 | host 127.0.0.1 with syslog on reads as that host, port 1312, level ERROR with syslog on, and GraphiQL off |
| ConfigProperties.ReadValidDocument | kofi/config.py:48-50 | a document with a valid host, port and log and no other key reads as itself, with GraphiQL added as False |
| ConfigProperties.LogDocumentValid | tests/test_conf.py:31 | the log settings of the first test document, with /tmp existing, are valid |
| ConfigProperties.FullLogDocument | tests/test_conf.py:27-38 | the first test document, with /tmp existing, reads as itself with GraphiQL added as False |
| ConfigProperties.ValidateFieldsCongruent | kofi/config.py:49-50 | the validation loop depends only on the outcome of each field |
| ConfigProperties.SameFieldsSameResult | kofi/config.py:50 | two documents that agree on the four field keys, counting absent and `None` as alike, read the same |
| ConfigProperties.UnknownKeysIgnored | kofi/config.py:49-50 | keys outside `DEFAULT` are neither validated nor kept |
| ConfigProperties.NoneIsMissing | kofi/config.py:66-68 | a field written as `None` reads exactly like a missing one |
| ConfigProperties.FieldFixpoint | kofi/config.py:135-140 | every validator returns an already valid value unchanged |
| ConfigProperties.EntryFixpoint | kofi/config.py:65-68 | each entry of a resolved configuration validates to itself |
| ConfigProperties.FieldsDetermine | kofi/config.py:133 | two configurations with exactly the four field keys that agree on every field are equal |
| ConfigProperties.ResolvedValidatesToItself | kofi/config.py:48-50 | validating a resolved configuration gives it back unchanged |
| ConfigProperties.ResolvedIsFixpoint | kofi/config.py:48-50 | validation gives a configuration back unchanged if and only if it is resolved |
| ConfigProperties.ReadResolvedDocument | kofi/config.py:44-50 | reading a file that already holds a resolved configuration yields exactly that configuration |
| ConfigProperties.MergeEmptyShell | kofi/config.py:22-33 | with no overrides the merge returns the file configuration |
| ConfigProperties.MergeSelf | kofi/config.py:22-33 | overriding a configuration with itself changes nothing |
| ConfigProperties.MergeIdempotent | kofi/config.py:22-33 | applying the same overrides twice equals applying them once, and the second merge is well defined |
| ConfigProperties.ShellOnlyKeysDropped | kofi/config.py:23-25 | a key that only the shell side has does not appear in the result |
| ConfigProperties.MergePreservesWellFormed | kofi/config.py:15-35 | the merge is well defined on a resolved configuration, and it keeps the configuration resolved when every override already has its field's type and range |
| ValidatorProperties.MixedCaseLocalhostKept | kofi/config.py:72-73 | "LocalHost" is accepted and kept in its own letter case |
| ValidatorProperties.DottedQuadAccepted | kofi/config.py:74-76 | the printed form of every dotted quad is accepted as written |
| ValidatorProperties.AcceptedHost | kofi/config.py:71-81 | every valid host is accepted as written |
| ValidatorProperties.RejectedHost | kofi/config.py:82 | a text that is neither "localhost" nor an IPv4 nor an IPv6 address is rejected, and the error names it |
| ValidatorProperties.NotLocalhost | kofi/config.py:72 | a text that starts with a digit is not "localhost" in any letter case |
| ValidatorProperties.OctetCountRejected | kofi/config.py:75 | a dotted text without exactly four parts is not an IPv4 address |
| ValidatorProperties.OctetRejected | kofi/config.py:75 | a dotted text with four parts, one of them not an octet, is not an IPv4 address |
| ValidatorProperties.LoopbackAccepted | tests/test_conf.py:29 | the host 127.0.0.1 is accepted as written |
| ValidatorProperties.DottedNotIPv6 | kofi/config.py:79 | a text without ':' or '%' is not an IPv6 address |
| ValidatorProperties.ColonRejected | kofi/config.py:78-82 | colon-separated groups that start with a digit and fail the layout check give a host that is rejected and named in the error |
| ValidatorProperties.NinePartsLayout | kofi/config.py:79 | nine groups with no "::" fail the layout check |
| ValidatorProperties.LongFirstGroupLayout | kofi/config.py:79 | a non-empty first group that is not a hextet fails the layout check, with or without a "::" |
| ValidatorProperties.FiveOctetsRejected | tests/test_conf.py:68-79 | "1.2.3.4.5" is rejected, and the error names it |
| ValidatorProperties.LongOctetRejected | tests/test_conf.py:68-79 | "1234.5.6.7" is rejected, and the error names it |
| ValidatorProperties.NineGroupsRejected | tests/test_conf.py:68-79 | "1:2:3:4:5:6:7:8:9" is rejected, and the error names it |
| ValidatorProperties.LongGroupRejected | tests/test_conf.py:68-79 | "12345::1" is rejected, and the error names it |
| ValidatorProperties.CompressedIPv6Accepted | tests/test_conf.py:47-50 | "2001:ff:2::1" is accepted as written |
| ValidatorProperties.MappedIPv4Accepted | kofi/config.py:76-80 | "::ffff:1.2.3.4", an IPv4 address embedded in an IPv6 one, is accepted as written |
| ValidatorProperties.PortBounds | kofi/config.py:86 | both bounds are exclusive: 0 and 65535 are rejected, 1 and 65534 accepted |
| ValidatorProperties.NegativePortShown | tests/test_conf.py:82-91 | the port -12 is rejected, and the message shows "-12" |
| ValidatorProperties.LargePortShown | tests/test_conf.py:82-91 | the port 66666 is rejected, and the message shows "66666" |
| ValidatorProperties.LevelUpper | kofi/config.py:93-94 | each admitted level is already upper case |
| ValidatorProperties.LogRoundTrip | kofi/config.py:92-115 | valid log settings, written out as a dictionary, validate back to themselves |
| ValidatorProperties.ValidateLogIdempotent | kofi/config.py:92-115 | validating the settings a successful validation returns gives the same settings again |
| ValidatorProperties.EmptyLogIsDefault | kofi/config.py:132 | an empty log mapping validates to `DEFAULT_LOG_CONF` |
| ValidatorProperties.SyslogOnlyKeepsDefaultLevel | tests/test_conf.py:40-44 | a log mapping with only syslog on keeps the default level ERROR |
| ValidatorProperties.LowerCaseLevelUpperCased | kofi/config.py:93 | the level "debug" is stored as "DEBUG" |
| ValidatorProperties.WarnRejected | tests/test_conf.py:97 | the level "WARN" is rejected, and the message carries "is invalid in configuration" and lists the admitted values |
| ValidatorProperties.IntegerSyslogRejected | tests/test_conf.py:98 | a syslog value of 1 is rejected, and the message carries "is invalid in configuration" and lists the allowed values |
| ValidatorProperties.LogFileRejected | kofi/config.py:106-112 | a non-empty log file whose directory does not exist is rejected, and the message carries "is invalid in configuration" and says the directory is missing |
| ValidatorProperties.MissingLogDirectoryRejected | tests/test_conf.py:99-102 | "/not/existing/path/to/logfile" is rejected when its directory does not exist, and the message carries "is invalid in configuration" and says the directory is missing |
| ValidatorProperties.ExistingLogDirectoryAccepted | tests/test_conf.py:31 | level DEBUG, syslog on and log file /tmp/logfile validate to themselves when /tmp exists |
| ValidatorProperties.BareLogFileRejected | kofi/config.py:107-112 | a log file name without a directory is always rejected, because the empty path never exists |
| Cli.OptRaw | kofi/cli.py:40-42 | an option that was not given is stored as `None`, and a given one as its text |
| Cli.LogOverrides | kofi/cli.py:40-45 | the log overrides always hold the level and the syslog flag, and hold the log file exactly when a non-empty one is given |
| Cli.ShellConfig | kofi/cli.py:35-47 | the overrides have a host or port entry exactly when that option is non-empty, and a log entry exactly when some log option is set; nothing else |
| Cli.LogRequested | kofi/cli.py:46 | a log entry is added when a level or a log file is given non-empty, or syslog is set |
| Cli.RunIsMerge | kofi/cli.py:48-49 | on a successful read, the start-up configuration is the file side merged with the overrides, and that merge is well defined |
| Cli.Run | kofi/cli.py:48-49 | the start-up configuration exists exactly when `read_config` succeeds, has the four field keys, and otherwise carries `read_config`'s error |
| Cli.FileSideWellFormed | kofi/cli.py:48 | the configuration read before the overrides is resolved, and its log settings are a well-formed mapping |
| Cli.TopLevelPrecedence | kofi/cli.py:35-49 | a given host or port replaces the file's value, and GraphiQL always comes from the file or the defaults |
| Cli.LogPrecedence | kofi/cli.py:40-49 | with no log option the file's log settings are kept; with one, the file's log keys are kept, level and syslog come from the command line, and a log file from the command line wins when given |
| Cli.LevelLostWithoutLevelOption | kofi/cli.py:40-47 | `--syslog` or `--log-file` without `--log-level` stores `None` as the level, so the result is no longer resolved |
| Cli.LogFileNeedsFileSide | kofi/config.py:28-31 | a log file from the command line is dropped when the file side has none |
| Cli.LogFileLostWithoutFile | kofi/cli.py:44-49 | with no configuration file, `--log-file` never reaches the result |
| Cli.OverridesWithoutFile | kofi/cli.py:48-49 | with no configuration file the overrides are merged into `DEFAULT` |
| Cli.NoOptionsNoChange | kofi/cli.py:35-49 | with no overriding option the result is exactly what `read_config` returns, error included |
| Cli.ShellPortNotValidated | kofi/cli.py:38-39 | a port from the command line stays text and is not validated, so the result is not resolved |
| Cli.SoundOptionsKeepWellFormed | kofi/cli.py:35-49 | when every given option already has the form its validator returns (a valid host; a level that is one of the four upper-case names; a non-empty log file in an existing directory), `--log-level` accompanies any log option, and no port is given, the start-up configuration is resolved |

## Left out

- YAML parsing is not modelled. The document at each path is a parameter of the environment
  (a function from path to mapping). Documents that are empty (YAML `None`) or not mappings,
  malformed documents, and lists and floats as values are not representable.
- Configuration.ReadConfig: opening fails exactly when the path does not exist. A path that exists
  but cannot be read (a directory, missing permissions) is read like any other file.
- Configuration.ReadConfig: a document that is not a mapping, which makes `conf.get` raise, is not
  representable, because documents are typed as mappings.
- Configuration.MergeConfigs: it requires `Mergeable`, which excludes the inputs on which
  `merge_configs` raises: a file side without "log" (KeyError at kofi/config.py:28 and :33), or
  a log side that is not a mapping where it is read as one (AttributeError at :28-29). Every
  caller meets it, because `read_config` always returns a "log" mapping and kofi/cli.py:40-47
  builds one.
- Values.Show renders a nested mapping as the placeholder "{...}", not as Python's `repr`. It is
  used only in the syslog and GraphiQL messages.
- The text of a `Crash` is not Python's exception message. Only the fact that something other
  than a `ValueError` is raised is modelled.
- Validators.ValidatePort: a boolean port is a crash, although Python's `True` compares as 1.
  The repository never passes a boolean port on purpose.
- Strings.Upper and Strings.Lower map ASCII letters, and `Upper` also maps the dotless i (U+0131)
  to "I". That is exact for deciding membership in the four admitted levels and for comparing
  with "localhost". Other Unicode case mappings are not modelled.
- The integer value of an IPv6 address, and IPv4 and IPv6 addresses given as integers or bytes,
  are not modelled. Only whether a string is accepted matters to the validator.
- click is not modelled: the option declarations, the case-insensitive choice of
  `--log-level`, the `exists=True` check on `--log-file` and the help text. The options arrive
  as click passes them on.
- In kofi/cli.py:51-54, the debug echo of the result and the start of the service
  (`run_from_shell`) are I/O and are not modelled.
- The logging set-up (kofi/log.py), the HTTP and GraphQL routes and the service itself are
  not part of this model.
- `pathlib.Path.home()` is a parameter of the environment.

=== FILE: cli.dfy ===
/**
 * The part of the console entry point (`kofi/cli.py`) that turns the
 * command-line options into overrides and combines them with the file
 * configuration. What click does with the options before they arrive
 * (choice checking, path checking) is not part of this model: the options
 * are taken as click hands them over.
 */
module Cli {
  import opened Wrappers
  import opened Paths
  import opened Values
  import opened Validators
  import opened Configuration
  import ConfigProperties

  /** The options of `main`; an option not given on the command line is `None`. */
  datatype Options = Options(
    configPath: Option<string>,  // -c / --config
    host: Option<string>,        // -b / --bind-address
    port: Option<string>,        // -p / --port: click passes it on as text, no type is declared
    logLevel: Option<string>,    // -l / --log-level
    syslog: bool,                // --syslog
    logFile: Option<string>)     // --log-file

  /** A text option is truthy: given and not empty. */
  predicate Given(o: Option<string>) {
    o.Some? && o.value != ""
  }

  /** An optional text as the value Python stores: `None` or the string. */
  function OptRaw(o: Option<string>): (r: Raw)
    ensures r.RNone? <==> o.None?
    ensures o.Some? ==> r == RStr(o.value)
  {
    match o
    case None => RNone
    case Some(s) => RStr(s)
  }

  /** `log_conf`: level and syslog always, the log file only when one is given. */
  function LogOverrides(o: Options): (m: map<string, Raw>)
    ensures "level" in m && m["level"] == OptRaw(o.logLevel)
    ensures "syslog" in m && m["syslog"] == RBool(o.syslog)
    ensures "log_file" in m <==> Given(o.logFile)
    ensures "log_file" in m ==> m["log_file"] == RStr(o.logFile.value)
    ensures m.Keys <= {"level", "syslog", "log_file"}
  {
    var base := map["level" := OptRaw(o.logLevel), "syslog" := RBool(o.syslog)];
    if Given(o.logFile) then base["log_file" := RStr(o.logFile.value)] else base
  }

  /** Some log option is set, which is when `shell_config` gets a "log" entry. */
  predicate LogRequested(o: Options) {
    Given(o.logLevel) || o.syslog || Given(o.logFile)
  }

  /** `shell_config`: an entry for each truthy option, the log settings as one mapping. */
  function ShellConfig(o: Options): (s: Config)
    ensures s.Keys <= {"host", "port", "log"}
    ensures "host" in s <==> Given(o.host)
    ensures "host" in s ==> s["host"] == RStr(o.host.value)
    ensures "port" in s <==> Given(o.port)
    ensures "port" in s ==> s["port"] == RStr(o.port.value)
    ensures "log" in s <==> LogRequested(o)
    ensures "log" in s ==> s["log"] == RMap(LogOverrides(o))
  {
    var withHost: Config := if Given(o.host) then map["host" := RStr(o.host.value)] else map[];
    var withPort := if Given(o.port) then withHost["port" := RStr(o.port.value)] else withHost;
    if LogRequested(o) then withPort["log" := RMap(LogOverrides(o))] else withPort
  }

  /** `merge_configs(read_config(config_path), shell_config)`: the configuration the service starts with. */
  function Run(o: Options, env: Env): (r: Result<Config, Error>)
    ensures r.Ok? <==> ReadConfig(o.configPath, env).Ok?
    ensures r.Err? ==> r == ReadConfig(o.configPath, env).PropagateFailure()
    ensures r.Ok? ==> r.value.Keys == FieldKeys
  {
    var config :- ReadConfig(o.configPath, env);
    assert Key(Log) == "log" && FieldValid(Log, config[Key(Log)], env.existing);
    Ok(MergeConfigs(config, ShellConfig(o)))
  }

  /** The configuration read from the file, or the defaults, before the overrides. */
  function FileSide(o: Options, env: Env): Config
    requires ReadConfig(o.configPath, env).Ok?
  {
    ReadConfig(o.configPath, env).value
  }

  lemma FileSideWellFormed(o: Options, env: Env)
    requires ReadConfig(o.configPath, env).Ok?
    ensures WellFormed(FileSide(o, env), env.existing)
    ensures FileSide(o, env)["log"].RMap? && WellFormedLog(FileSide(o, env)["log"].m, env.existing)
  {
    assert Key(Log) == "log" && FieldValid(Log, FileSide(o, env)[Key(Log)], env.existing);
  }

  /** On success, `main` starts with the file side merged with the overrides. */
  lemma RunIsMerge(o: Options, env: Env)
    requires ReadConfig(o.configPath, env).Ok?
    ensures Mergeable(FileSide(o, env), ShellConfig(o))
    ensures Run(o, env) == Ok(MergeConfigs(FileSide(o, env), ShellConfig(o)))
  {
    FileSideWellFormed(o, env);
  }

  /** A given host or port replaces the file's; GraphiQL always comes from the file or the defaults. */
  lemma TopLevelPrecedence(o: Options, env: Env)
    requires ReadConfig(o.configPath, env).Ok?
    ensures Run(o, env).value["host"] == if Given(o.host) then RStr(o.host.value) else FileSide(o, env)["host"]
    ensures Run(o, env).value["port"] == if Given(o.port) then RStr(o.port.value) else FileSide(o, env)["port"]
    ensures Run(o, env).value["graphiql"] == FileSide(o, env)["graphiql"]
  {
    RunIsMerge(o, env);
    var file, shell := FileSide(o, env), ShellConfig(o);
    assert Run(o, env).value == MergeConfigs(file, shell);
    assert Key(Host) == "host" && Key(Port) == "port" && Key(Graphiql) == "graphiql";
  }

  /**
   * With a log option set, the merged log settings keep the file's keys: the
   * level and the syslog flag are those of the command line, and the log file
   * is the command line's when given and the file's otherwise.
   */
  lemma LogPrecedence(o: Options, env: Env)
    requires ReadConfig(o.configPath, env).Ok?
    ensures !LogRequested(o) ==> Run(o, env).value["log"] == FileSide(o, env)["log"]
    ensures LogRequested(o) ==>
      var fileLog := FileSide(o, env)["log"].m;
      var out := Run(o, env).value["log"];
      && out.RMap?
      && out.m.Keys == fileLog.Keys
      && out.m["level"] == OptRaw(o.logLevel)
      && out.m["syslog"] == RBool(o.syslog)
      && ("log_file" in out.m ==> out.m["log_file"] == if Given(o.logFile) then RStr(o.logFile.value) else fileLog["log_file"])
  {
    FileSideWellFormed(o, env);
    RunIsMerge(o, env);
  }

  /**
   * `--syslog` or `--log-file` without `--log-level` stores `None` as the
   * level, replacing the file's or the default level, and the result is then
   * no longer a resolved configuration.
   */
  lemma LevelLostWithoutLevelOption(o: Options, env: Env)
    requires ReadConfig(o.configPath, env).Ok?
    requires o.logLevel.None? && (o.syslog || Given(o.logFile))
    ensures Run(o, env).value["log"].m["level"] == RNone
    ensures !WellFormed(Run(o, env).value, env.existing)
  {
    LogPrecedence(o, env);
    var out := Run(o, env).value;
    assert Key(Log) == "log";
    assert !FieldValid(Log, out[Key(Log)], env.existing);
  }

  /** A log file given on the command line is dropped unless the file side already names one. */
  lemma LogFileNeedsFileSide(o: Options, env: Env)
    requires ReadConfig(o.configPath, env).Ok?
    requires "log_file" !in FileSide(o, env)["log"].m
    ensures "log_file" !in Run(o, env).value["log"].m
  {
    LogPrecedence(o, env);
  }

  /** Without a configuration file the default log settings have no log file, so `--log-file` is always lost. */
  lemma LogFileLostWithoutFile(o: Options, env: Env)
    requires ConfPath(o.configPath, env) == ""
    ensures Run(o, env).Ok?
    ensures "log_file" !in Run(o, env).value["log"].m
  {
    ConfigProperties.DefaultValues(env.existing);
    LogFileNeedsFileSide(o, env);
  }

  /** Overrides apply even when no file is found: they are merged into the defaults. */
  lemma OverridesWithoutFile(o: Options, env: Env)
    requires ConfPath(o.configPath, env) == ""
    ensures Run(o, env) == Ok(MergeConfigs(Default, ShellConfig(o)))
    ensures Run(o, env).value["host"] == if Given(o.host) then RStr(o.host.value) else RStr("0.0.0.0")
    ensures Run(o, env).value["port"] == if Given(o.port) then RStr(o.port.value) else RInt(1312)
  {
    TopLevelPrecedence(o, env);
  }

  /** With no overriding option the result is exactly what `read_config` returns. */
  lemma NoOptionsNoChange(o: Options, env: Env)
    requires !Given(o.host) && !Given(o.port) && !LogRequested(o)
    ensures Run(o, env) == ReadConfig(o.configPath, env)
  {
    assert ShellConfig(o) == map[];
    if ReadConfig(o.configPath, env).Ok? {
      FileSideWellFormed(o, env);
      ConfigProperties.MergeEmptyShell(FileSide(o, env));
    }
  }

  /**
   * The merged result is not validated again: a port given on the command
   * line stays text, so the result is not a resolved configuration, whatever
   * the text says.
   */
  lemma ShellPortNotValidated(o: Options, env: Env)
    requires ReadConfig(o.configPath, env).Ok?
    requires Given(o.port)
    ensures Run(o, env).value["port"] == RStr(o.port.value)
    ensures !WellFormed(Run(o, env).value, env.existing)
  {
    TopLevelPrecedence(o, env);
    assert Key(Port) == "port";
    assert !FieldValid(Port, Run(o, env).value[Key(Port)], env.existing);
  }

  /** Options whose values each pass the validator of their field (no port, which is always text). */
  predicate SoundOptions(o: Options, existing: set<string>) {
    && !Given(o.port)
    && (Given(o.host) ==> ValidHost(o.host.value))
    && (LogRequested(o) ==> o.logLevel.Some? && o.logLevel.value in Levels)
    && (Given(o.logFile) ==> Exists(existing, DirName(o.logFile.value)))
  }

  /** When every option is itself valid, the merged configuration is resolved. */
  lemma SoundOptionsKeepWellFormed(o: Options, env: Env)
    requires ReadConfig(o.configPath, env).Ok?
    requires SoundOptions(o, env.existing)
    ensures WellFormed(Run(o, env).value, env.existing)
  {
    var shell := ShellConfig(o);
    forall f: Field | f != Log && Key(f) in shell
      ensures FieldValid(f, shell[Key(f)], env.existing)
    {
      assert f == Host;
    }
    assert ConfigProperties.SoundOverrides(shell, env.existing);
    FileSideWellFormed(o, env);
    ConfigProperties.MergePreservesWellFormed(FileSide(o, env), shell, env.existing);
  }
}

=== FILE: config.dfy ===
/**
 * The configuration pipeline of `kofi/config.py`: the default table, the
 * search for a configuration file, `read_config` with its per-field
 * validation, and `merge_configs`.
 */
module Configuration {
  import opened Wrappers
  import opened Strings
  import opened Paths
  import opened IpAddress
  import opened Values
  import opened Validators

  /** The four configuration fields; each names one entry of `DEFAULT` and of `VALIDATE`. */
  datatype Field = Host | Port | Log | Graphiql

  function Key(f: Field): string {
    match f
    case Host => "host"
    case Port => "port"
    case Log => "log"
    case Graphiql => "graphiql"
  }

  /** The order of `DEFAULT`, which is the order `read_config` validates in. */
  const Fields: seq<Field> := [Host, Port, Log, Graphiql]

  const FieldKeys: set<string> := {"host", "port", "log", "graphiql"}

  /** `DEFAULT` */
  const Default: Config :=
    map["host" := RStr("0.0.0.0"), "port" := RInt(1312), "log" := DefaultLog.ToRaw(), "graphiql" := RBool(false)]

  /** A raw log mapping of the shape `_validate_log` returns. */
  predicate WellFormedLog(m: map<string, Raw>, existing: set<string>) {
    && "level" in m && m["level"].RStr? && m["level"].s in Levels
    && "syslog" in m && m["syslog"].RBool?
    && m.Keys <= {"level", "syslog", "log_file"}
    && ("log_file" in m ==>
          m["log_file"].RStr? && m["log_file"].s != "" && Exists(existing, DirName(m["log_file"].s)))
  }

  /** A value of the type and range its field's validator guarantees. */
  predicate FieldValid(f: Field, v: Raw, existing: set<string>) {
    match f
    case Host => v.RStr? && ValidHost(v.s)
    case Port => v.RInt? && 0 < v.i < 65535
    case Log => v.RMap? && WellFormedLog(v.m, existing)
    case Graphiql => v.RBool?
  }

  /** A resolved configuration: exactly the four fields, each valid. */
  predicate WellFormed(c: Config, existing: set<string>) {
    && c.Keys == FieldKeys
    && forall f: Field :: Key(f) in c && FieldValid(f, c[Key(f)], existing)
  }

  lemma LogToRawWellFormed(l: LogConf, existing: set<string>)
    requires ValidLog(l, existing)
    ensures WellFormedLog(l.ToRaw().m, existing)
  {
  }

  /** The default host "0.0.0.0" is an IPv4 address. */
  lemma DefaultHostValid(h: string)
    requires h == "0.0.0.0"
    ensures ValidHost(h)
  {
    var parts := ["0", "0", "0", "0"];
    assert Join(parts, '.') == h;
    assert ValidOctet(parts[0]);
    QuadAccepted(parts);
  }

  lemma DefaultWellFormed(existing: set<string>)
    ensures WellFormed(Default, existing)
  {
    var host := Default["host"];
    DefaultHostValid(host.s);
    LogToRawWellFormed(DefaultLog, existing);
    forall f: Field
      ensures Key(f) in Default && FieldValid(f, Default[Key(f)], existing)
    {
    }
  }

  /** `VALIDATE[key](datum)` */
  function Validate(f: Field, datum: Raw, existing: set<string>): (r: Result<Raw, Error>)
    ensures r.Ok? ==> FieldValid(f, r.value, existing)
  {
    match f
    case Host =>
      var h :- ValidateHost(datum);
      Ok(RStr(h))
    case Port =>
      var p :- ValidatePort(datum);
      Ok(RInt(p))
    case Log =>
      var l :- ValidateLog(datum, existing);
      LogToRawWellFormed(l, existing);
      Ok(l.ToRaw())
    case Graphiql =>
      var g :- ValidateGraphiql(datum);
      Ok(RBool(g))
  }

  /** `_validate(key, conf.get(key), DEFAULT[key])`: an absent or `None` entry takes the default unvalidated. */
  function ValidateEntry(f: Field, conf: Config, existing: set<string>): (r: Result<Raw, Error>)
    ensures Lookup(conf, Key(f)).RNone? ==> r == Ok(Default[Key(f)])
    ensures !Lookup(conf, Key(f)).RNone? ==> r == Validate(f, conf[Key(f)], existing)
  {
    var datum := Lookup(conf, Key(f));
    if !datum.RNone? then Validate(f, datum, existing) else Ok(Default[Key(f)])
  }

  lemma EntryValid(f: Field, conf: Config, existing: set<string>)
    requires ValidateEntry(f, conf, existing).Ok?
    ensures FieldValid(f, ValidateEntry(f, conf, existing).value, existing)
  {
    if Lookup(conf, Key(f)).RNone? {
      DefaultWellFormed(existing);
    }
  }

  /** The keys of the given fields. */
  function KeysOf(fs: seq<Field>): (ks: set<string>)
    ensures forall i :: 0 <= i < |fs| ==> Key(fs[i]) in ks
  {
    if fs == [] then {} else {Key(fs[0])} + KeysOf(fs[1..])
  }

  /**
   * The loop of `read_config` over the given fields, with `entry` standing for
   * the validation of one field: every field is validated in turn and, on
   * success, the result holds exactly the validated entries.
   */
  function ValidateFields(fs: seq<Field>, entry: Field -> Result<Raw, Error>): (r: Result<Config, Error>)
    ensures r.Ok? <==> forall i :: 0 <= i < |fs| ==> entry(fs[i]).Ok?
    ensures r.Ok? ==> r.value.Keys == KeysOf(fs)
    ensures r.Ok? ==> forall i :: 0 <= i < |fs| ==> r.value[Key(fs[i])] == entry(fs[i]).value
  {
    if fs == [] then Ok(map[])
    else
      var v :- entry(fs[0]);
      var rest :- ValidateFields(fs[1..], entry);
      assert forall i :: 1 <= i < |fs| ==> fs[i] == fs[1..][i - 1];
      assert forall f: Field, g: Field :: Key(f) == Key(g) ==> f == g;
      Ok(rest[Key(fs[0]) := v])
  }

  /** The error `ValidateFields` raises is that of the first field that fails. */
  lemma {:induction false} ValidateFieldsFirstFailure(fs: seq<Field>, entry: Field -> Result<Raw, Error>)
    requires ValidateFields(fs, entry).Err?
    ensures exists i :: && 0 <= i < |fs|
                        && entry(fs[i]) == Err(ValidateFields(fs, entry).error)
                        && (forall j :: 0 <= j < i ==> entry(fs[j]).Ok?)
  {
    var e := ValidateFields(fs, entry).error;
    if entry(fs[0]).Err? {
      assert entry(fs[0]) == Err(e);
    } else {
      ValidateFieldsFirstFailure(fs[1..], entry);
      var i :| && 0 <= i < |fs| - 1
               && entry(fs[1..][i]) == Err(e)
               && (forall j :: 0 <= j < i ==> entry(fs[1..][j]).Ok?);
      assert forall j :: 1 <= j <= i + 1 ==> fs[j] == fs[1..][j - 1];
      assert entry(fs[i + 1]) == Err(e);
    }
  }

  /** The validation `read_config` applies to each field of a parsed document. */
  function EntryOf(conf: Config, existing: set<string>): Field -> Result<Raw, Error> {
    f => ValidateEntry(f, conf, existing)
  }

  /** The position of a field in `Fields`. */
  function IndexOf(f: Field): (i: nat)
    ensures i < |Fields| && Fields[i] == f
  {
    match f
    case Host => 0
    case Port => 1
    case Log => 2
    case Graphiql => 3
  }

  /** Whatever the document holds, a successful validation of all fields yields a resolved configuration. */
  lemma ValidatedWellFormed(conf: Config, existing: set<string>)
    requires ValidateFields(Fields, EntryOf(conf, existing)).Ok?
    ensures WellFormed(ValidateFields(Fields, EntryOf(conf, existing)).value, existing)
  {
    var r := ValidateFields(Fields, EntryOf(conf, existing)).value;
    forall f: Field
      ensures Key(f) in r && FieldValid(f, r[Key(f)], existing)
    {
      assert Fields[IndexOf(f)] == f;
      EntryValid(f, conf, existing);
    }
    assert KeysOf(Fields) == FieldKeys;
  }

  /** The file system and the parser as the pipeline sees them. */
  datatype Env = Env(
    existing: set<string>,       // the paths `os.path.exists` reports
    home: string,                // `pathlib.Path.home()`
    document: string -> Config)  // the mapping `yaml.safe_load` yields for the file at a path

  /** `DEFAULT_CONF_PATH` */
  function SearchPath(home: string): (ps: seq<string>)
    ensures |ps| == 3 && ps[0] == "./kofi.yml" && ps[2] == "/etc/kofi/kofi.yml"
    ensures ps[1] == PathJoin(home, "kofi.yml")
  {
    [PathJoin(".", "kofi.yml"), PathJoin(home, "kofi.yml"), "/etc/kofi/kofi.yml"]
  }

  /** The first existing path of `paths`, or "" when none exists. */
  function FirstExisting(paths: seq<string>, existing: set<string>): (r: string)
    ensures r == "" <==> forall i :: 0 <= i < |paths| ==> !Exists(existing, paths[i])
    ensures r != "" ==>
      exists i :: 0 <= i < |paths| && paths[i] == r && Exists(existing, r)
        && forall j :: 0 <= j < i ==> !Exists(existing, paths[j])
  {
    if paths == [] then ""
    else if Exists(existing, paths[0]) then paths[0]
    else FirstExisting(paths[1..], existing)
  }

  /** `_find_conf()` */
  function FindConf(env: Env): (r: string)
    ensures r == "" || (Exists(env.existing, r) && r in SearchPath(env.home))
  {
    FirstExisting(SearchPath(env.home), env.existing)
  }

  /** The path `read_config` opens: the explicit one if given, else the search result; "" means none. */
  function ConfPath(confFile: Option<string>, env: Env): (r: string)
    ensures confFile.Some? ==> r == confFile.value
    ensures confFile.None? ==> r == FindConf(env)
    ensures confFile.None? ==> r == "" || Exists(env.existing, r)
  {
    if confFile.None? then FindConf(env) else confFile.value
  }

  /**
   * `read_config(conf_file)`: with a path, every field of the parsed
   * document is validated or defaulted; without one, `DEFAULT` is returned
   * as it stands. An explicit path that does not exist cannot be opened;
   * a path the search found always exists.
   */
  function ReadConfig(confFile: Option<string>, env: Env): (r: Result<Config, Error>)
    ensures r.Ok? ==> WellFormed(r.value, env.existing)
    ensures ConfPath(confFile, env) == "" ==> r == Ok(Default)
    ensures ConfPath(confFile, env) != "" && !Exists(env.existing, ConfPath(confFile, env)) ==>
      r.Err? && r.error.Crash?
  {
    var path := ConfPath(confFile, env);
    if path != "" then
      if !Exists(env.existing, path) then Err(Crash("the configuration file cannot be opened"))
      else
        var r := ValidateFields(Fields, EntryOf(env.document(path), env.existing));
        if r.Ok? then
          ValidatedWellFormed(env.document(path), env.existing);
          r
        else r
    else
      DefaultWellFormed(env.existing);
      Ok(Default)
  }

  /**
   * The inputs for which `merge_configs` runs without raising: the file side
   * has a "log" entry and, when the shell side overrides the log settings,
   * both sides are mappings wherever they are read as such.
   */
  predicate Mergeable(config: Config, shell: Config) {
    && "log" in config
    && ("log" in shell ==> config["log"].RMap? && (config["log"].m != map[] ==> shell["log"].RMap?))
  }

  /** The inner loop of `merge_configs`: the file's log keys, each taking the shell value when there is one. */
  function MergeLog(fileLog: map<string, Raw>, shellLog: Raw): (out: map<string, Raw>)
    requires fileLog != map[] ==> shellLog.RMap?
    ensures out.Keys == fileLog.Keys
  {
    map k | k in fileLog :: Get(shellLog.m, k, fileLog[k])
  }

  /**
   * `merge_configs(config, shell_config)`: the file's keys drive the result;
   * the shell value wins on every key both have, nested log keys included.
   */
  function MergeConfigs(config: Config, shell: Config): (out: Config)
    requires Mergeable(config, shell)
    ensures out.Keys == config.Keys
    ensures forall k :: k in config && k != "log" ==> out[k] == Get(shell, k, config[k])
    ensures "log" !in shell ==> out["log"] == config["log"]
    ensures "log" in shell ==> out["log"].RMap? && out["log"].m.Keys == config["log"].m.Keys
    ensures "log" in shell ==>
      forall k :: k in config["log"].m ==> shell["log"].RMap? && out["log"].m[k] == Get(shell["log"].m, k, config["log"].m[k])
  {
    var top := map k | k in config && k != "log" :: Get(shell, k, config[k]);
    var log := if "log" in shell then RMap(MergeLog(config["log"].m, shell["log"])) else config["log"];
    top["log" := log]
  }
}

=== FILE: config_properties.dfy ===
/**
 * Properties of the configuration pipeline: where the file is looked for,
 * how `read_config` treats each field, that validating a resolved
 * configuration gives it back, and how `merge_configs` lets the shell win.
 */
module ConfigProperties {
  import opened Wrappers
  import opened Paths
  import opened Values
  import opened Validators
  import opened Configuration
  import ValidatorProperties

  // ---------------------------------------------------------------------------
  // Finding the file
  // ---------------------------------------------------------------------------

  /** `_find_conf` tries the working directory, then the home directory, then /etc/kofi. */
  lemma SearchOrder(env: Env)
    ensures Exists(env.existing, "./kofi.yml") ==> FindConf(env) == "./kofi.yml"
    ensures !Exists(env.existing, "./kofi.yml") && Exists(env.existing, PathJoin(env.home, "kofi.yml")) ==>
      FindConf(env) == PathJoin(env.home, "kofi.yml")
    ensures !Exists(env.existing, "./kofi.yml") && !Exists(env.existing, PathJoin(env.home, "kofi.yml")) ==>
      FindConf(env) == (if Exists(env.existing, "/etc/kofi/kofi.yml") then "/etc/kofi/kofi.yml" else "")
  {
    var e := env.existing;
    var ps := SearchPath(env.home);
    assert ps[0] == "./kofi.yml";
    if !Exists(e, ps[0]) {
      assert FindConf(env) == FirstExisting(ps[1..], e);
      assert ps[1..][0] == PathJoin(env.home, "kofi.yml");
      if !Exists(e, ps[1]) {
        assert FirstExisting(ps[1..], e) == FirstExisting(ps[1..][1..], e);
        var last := ps[1..][1..];
        assert last == ["/etc/kofi/kofi.yml"];
        assert last[1..] == [];
      }
    }
  }

  /** With no file given and none of the three candidates present, the defaults are used as they stand. */
  lemma NoFileGivesDefault(env: Env)
    requires !Exists(env.existing, "./kofi.yml")
    requires !Exists(env.existing, PathJoin(env.home, "kofi.yml"))
    requires !Exists(env.existing, "/etc/kofi/kofi.yml")
    ensures ReadConfig(None, env) == Ok(Default)
  {
    SearchOrder(env);
  }

  /** An explicit empty path is falsy: it is not searched for and the defaults are used. */
  lemma EmptyPathGivesDefault(env: Env)
    ensures ReadConfig(Some(""), env) == Ok(Default)
  {
  }

  /** An explicit path that does not exist makes `read_config` raise instead of reading anything. */
  lemma MissingFileRaises(p: string, env: Env)
    requires p != "" && !Exists(env.existing, p)
    ensures ReadConfig(Some(p), env).Err? && ReadConfig(Some(p), env).error.Crash?
  {
  }

  /** A file found by the search is always read: its document is validated field by field. */
  lemma SearchedFileIsRead(env: Env)
    requires FindConf(env) != ""
    ensures ReadConfig(None, env) == ValidateFields(Fields, EntryOf(env.document(FindConf(env)), env.existing))
  {
  }

  /** The defaults: 0.0.0.0:1312, log level ERROR without syslog or log file, GraphiQL off. */
  lemma DefaultValues(existing: set<string>)
    ensures Default.Keys == FieldKeys
    ensures Default["host"] == RStr("0.0.0.0") && Default["port"] == RInt(1312)
    ensures Default["log"] == RMap(map["level" := RStr("ERROR"), "syslog" := RBool(false)])
    ensures Default["graphiql"] == RBool(false)
    ensures WellFormed(Default, existing)
  {
    DefaultWellFormed(existing);
  }

  // ---------------------------------------------------------------------------
  // Reading the file
  // ---------------------------------------------------------------------------

  /** The document read from the path `read_config` opens. */
  function Document(confFile: Option<string>, env: Env): Config {
    env.document(ConfPath(confFile, env))
  }

  /**
   * With a file, `read_config` succeeds exactly when every field validates
   * or defaults, and each field of the result is that field's outcome.
   */
  lemma ReadConfigFieldwise(confFile: Option<string>, env: Env)
    requires Exists(env.existing, ConfPath(confFile, env))
    ensures ReadConfig(confFile, env).Ok? <==>
      forall f: Field :: ValidateEntry(f, Document(confFile, env), env.existing).Ok?
    ensures ReadConfig(confFile, env).Ok? ==>
      forall f: Field :: ReadConfig(confFile, env).value[Key(f)] == ValidateEntry(f, Document(confFile, env), env.existing).value
  {
    var doc := Document(confFile, env);
    var entry := EntryOf(doc, env.existing);
    var r := ValidateFields(Fields, entry);
    assert ReadConfig(confFile, env) == r;
    if r.Ok? {
      forall f: Field
        ensures ValidateEntry(f, doc, env.existing).Ok?
        ensures r.value[Key(f)] == ValidateEntry(f, doc, env.existing).value
      {
        assert Fields[IndexOf(f)] == f;
        assert entry(Fields[IndexOf(f)]) == ValidateEntry(f, doc, env.existing);
      }
    }
    if forall f: Field :: ValidateEntry(f, doc, env.existing).Ok? {
      forall i | 0 <= i < |Fields|
        ensures entry(Fields[i]).Ok?
      {
        assert entry(Fields[i]) == ValidateEntry(Fields[i], doc, env.existing);
      }
    }
  }

  /**
   * A failing `read_config` raises the error of the first field, in the order
   * host, port, log, graphiql, whose validation fails.
   */
  lemma ReadConfigFailureOrder(confFile: Option<string>, env: Env)
    requires Exists(env.existing, ConfPath(confFile, env))
    requires ReadConfig(confFile, env).Err?
    ensures exists i :: && 0 <= i < |Fields|
                        && ValidateEntry(Fields[i], Document(confFile, env), env.existing) == Err(ReadConfig(confFile, env).error)
                        && forall j :: 0 <= j < i ==> ValidateEntry(Fields[j], Document(confFile, env), env.existing).Ok?
  {
    var doc := Document(confFile, env);
    var entry := EntryOf(doc, env.existing);
    ValidateFieldsFirstFailure(Fields, entry);
    var i :| && 0 <= i < |Fields|
             && entry(Fields[i]) == Err(ValidateFields(Fields, entry).error)
             && (forall j :: 0 <= j < i ==> entry(Fields[j]).Ok?);
    assert ValidateEntry(Fields[i], doc, env.existing) == Err(ReadConfig(confFile, env).error);
  }

  /** When every field of the document yields the matching entry of `c`, `read_config` returns `c`. */
  lemma ReadAsEntries(confFile: Option<string>, env: Env, c: Config)
    requires Exists(env.existing, ConfPath(confFile, env))
    requires c.Keys == FieldKeys
    requires forall f: Field :: ValidateEntry(f, Document(confFile, env), env.existing) == Ok(c[Key(f)])
    ensures ReadConfig(confFile, env) == Ok(c)
  {
    ReadConfigFieldwise(confFile, env);
    var r := ReadConfig(confFile, env).value;
    assert r.Keys == FieldKeys;
    forall i | 0 <= i < |Fields|
      ensures r[Key(Fields[i])] == c[Key(Fields[i])]
    {
    }
    FieldsDetermine(c, r);
  }

  /** An empty document reads as `DEFAULT`. */
  lemma EmptyDocumentGivesDefault(confFile: Option<string>, env: Env)
    requires Exists(env.existing, ConfPath(confFile, env))
    requires Document(confFile, env) == map[]
    ensures ReadConfig(confFile, env) == Ok(Default)
  {
    ReadAsEntries(confFile, env, Default);
  }

  /** A document holding only a valid port reads as `DEFAULT` with that port. */
  lemma PortOnlyDocument(confFile: Option<string>, env: Env, p: int)
    requires Exists(env.existing, ConfPath(confFile, env))
    requires Document(confFile, env) == map["port" := RInt(p)]
    requires 0 < p < 65535
    ensures ReadConfig(confFile, env) == Ok(Default["port" := RInt(p)])
  {
    var c := Default["port" := RInt(p)];
    forall f: Field
      ensures ValidateEntry(f, Document(confFile, env), env.existing) == Ok(c[Key(f)])
    {
      if f != Port {
        assert Key(f) != "port";
      }
    }
    ReadAsEntries(confFile, env, c);
  }

  /** The loopback host with syslog switched on: the level and GraphiQL come from the defaults. */
  lemma HostAndSyslogDocument(confFile: Option<string>, env: Env, h: string)
    requires Exists(env.existing, ConfPath(confFile, env))
    requires h == "127.0.0.1"
    requires Document(confFile, env) == map["host" := RStr(h), "log" := RMap(map["syslog" := RBool(true)])]
    ensures ReadConfig(confFile, env) == Ok(map["host" := RStr(h), "port" := RInt(1312),
      "log" := RMap(map["level" := RStr("ERROR"), "syslog" := RBool(true)]), "graphiql" := RBool(false)])
  {
    var c := map["host" := RStr(h), "port" := RInt(1312),
      "log" := RMap(map["level" := RStr("ERROR"), "syslog" := RBool(true)]), "graphiql" := RBool(false)];
    ValidatorProperties.LoopbackAccepted(h);
    ValidatorProperties.SyslogOnlyKeepsDefaultLevel(env.existing);
    forall f: Field
      ensures ValidateEntry(f, Document(confFile, env), env.existing) == Ok(c[Key(f)])
    {
    }
    ReadAsEntries(confFile, env, c);
  }

  /** A document with a valid host, port and log, and no GraphiQL entry, reads as itself with GraphiQL off. */
  lemma ReadValidDocument(confFile: Option<string>, env: Env)
    requires Exists(env.existing, ConfPath(confFile, env))
    requires Document(confFile, env).Keys == {"host", "port", "log"}
    requires forall f: Field :: f != Graphiql ==> FieldValid(f, Document(confFile, env)[Key(f)], env.existing)
    ensures ReadConfig(confFile, env) == Ok(Document(confFile, env)["graphiql" := RBool(false)])
  {
    var doc := Document(confFile, env);
    var c := doc["graphiql" := RBool(false)];
    forall f: Field
      ensures ValidateEntry(f, doc, env.existing) == Ok(c[Key(f)])
    {
      if f != Graphiql {
        assert Key(f) in doc && Key(f) != "graphiql";
        FieldFixpoint(f, doc[Key(f)], env.existing);
      }
    }
    ReadAsEntries(confFile, env, c);
  }

  /** The first document of the repository's tests: every field but GraphiQL set, with a log file under /tmp. */
  lemma FullLogDocument(confFile: Option<string>, env: Env, h: string, log: map<string, Raw>)
    requires Exists(env.existing, ConfPath(confFile, env))
    requires h == "127.0.0.1" && "/tmp" in env.existing
    requires log == map["level" := RStr("DEBUG"), "syslog" := RBool(true), "log_file" := RStr("/tmp/logfile")]
    requires Document(confFile, env) == map["host" := RStr(h), "port" := RInt(13121), "log" := RMap(log)]
    ensures ReadConfig(confFile, env) == Ok(Document(confFile, env)["graphiql" := RBool(false)])
  {
    var doc := Document(confFile, env);
    ValidatorProperties.LoopbackAccepted(h);
    LogDocumentValid(log, env.existing);
    forall f: Field | f != Graphiql
      ensures FieldValid(f, doc[Key(f)], env.existing)
    {
    }
    ReadValidDocument(confFile, env);
  }

  lemma LogDocumentValid(log: map<string, Raw>, existing: set<string>)
    requires "/tmp" in existing
    requires log == map["level" := RStr("DEBUG"), "syslog" := RBool(true), "log_file" := RStr("/tmp/logfile")]
    ensures FieldValid(Log, RMap(log), existing)
  {
    assert PathJoin("/tmp", "logfile") == "/tmp/logfile";
    DirNameOfJoin("/tmp", "logfile");
  }

  /** A bad host is reported even when the port is bad too: the host is checked first. */
  lemma HostCheckedBeforePort(confFile: Option<string>, env: Env)
    requires Exists(env.existing, ConfPath(confFile, env))
    requires ValidateEntry(Host, Document(confFile, env), env.existing).Err?
    ensures ReadConfig(confFile, env) == Err(ValidateEntry(Host, Document(confFile, env), env.existing).error)
  {
  }

  /** `ValidateFields` looks at the entries only through the validation of each field. */
  lemma {:induction false} ValidateFieldsCongruent(fs: seq<Field>, e1: Field -> Result<Raw, Error>, e2: Field -> Result<Raw, Error>)
    requires forall i :: 0 <= i < |fs| ==> e1(fs[i]) == e2(fs[i])
    ensures ValidateFields(fs, e1) == ValidateFields(fs, e2)
  {
    if fs != [] {
      assert forall i :: 0 <= i < |fs| - 1 ==> fs[1..][i] == fs[i + 1];
      ValidateFieldsCongruent(fs[1..], e1, e2);
    }
  }

  /** Two documents that agree on the four field keys, `None` and absent being alike, read the same. */
  lemma SameFieldsSameResult(conf: Config, other: Config, existing: set<string>)
    requires forall f: Field :: Lookup(conf, Key(f)) == Lookup(other, Key(f))
    ensures ValidateFields(Fields, EntryOf(conf, existing)) == ValidateFields(Fields, EntryOf(other, existing))
  {
    forall i | 0 <= i < |Fields|
      ensures EntryOf(conf, existing)(Fields[i]) == EntryOf(other, existing)(Fields[i])
    {
      var f := Fields[i];
      assert Lookup(conf, Key(f)) == Lookup(other, Key(f));
    }
    ValidateFieldsCongruent(Fields, EntryOf(conf, existing), EntryOf(other, existing));
  }

  /** The document without the keys `DEFAULT` does not know. */
  function OnlyFields(conf: Config): (r: Config)
    ensures r.Keys == conf.Keys * FieldKeys
  {
    map k | k in conf && k in FieldKeys :: conf[k]
  }

  /** Keys outside `DEFAULT` are ignored: they are neither validated nor kept. */
  lemma UnknownKeysIgnored(conf: Config, existing: set<string>)
    ensures ValidateFields(Fields, EntryOf(conf, existing)) == ValidateFields(Fields, EntryOf(OnlyFields(conf), existing))
  {
    forall f: Field
      ensures Lookup(conf, Key(f)) == Lookup(OnlyFields(conf), Key(f))
    {
      assert Key(f) in FieldKeys;
    }
    SameFieldsSameResult(conf, OnlyFields(conf), existing);
  }

  /** An entry written as `None` reads like a missing one: both take the default. */
  lemma NoneIsMissing(conf: Config, f: Field, existing: set<string>)
    ensures ValidateFields(Fields, EntryOf(conf[Key(f) := RNone], existing))
         == ValidateFields(Fields, EntryOf(conf - {Key(f)}, existing))
  {
    forall g: Field
      ensures Lookup(conf[Key(f) := RNone], Key(g)) == Lookup(conf - {Key(f)}, Key(g))
    {
      if g != f {
        assert Key(g) != Key(f);
      }
    }
    SameFieldsSameResult(conf[Key(f) := RNone], conf - {Key(f)}, existing);
  }

  // ---------------------------------------------------------------------------
  // Validation is a projection
  // ---------------------------------------------------------------------------

  /** The log settings a well-formed log mapping stands for. */
  function LogOf(m: map<string, Raw>, existing: set<string>): (l: LogConf)
    requires WellFormedLog(m, existing)
    ensures ValidLog(l, existing) && l.ToRaw() == RMap(m)
  {
    var l := LogConf(m["level"].s, m["syslog"].b, if "log_file" in m then Some(m["log_file"].s) else None);
    assert l.ToRaw().m == m;
    l
  }

  /** A value that already has its field's type and range passes its validator unchanged. */
  lemma FieldFixpoint(f: Field, v: Raw, existing: set<string>)
    requires FieldValid(f, v, existing)
    ensures Validate(f, v, existing) == Ok(v)
  {
    match f
    case Log =>
      var l := LogOf(v.m, existing);
      ValidatorProperties.LogRoundTrip(l, existing);
    case _ =>
  }

  /** Each entry of a resolved configuration validates to itself. */
  lemma EntryFixpoint(c: Config, f: Field, existing: set<string>)
    requires WellFormed(c, existing)
    ensures ValidateEntry(f, c, existing) == Ok(c[Key(f)])
  {
    assert Key(f) in c && FieldValid(f, c[Key(f)], existing);
    FieldFixpoint(f, c[Key(f)], existing);
  }

  /** A configuration with the four field keys is determined by its four fields. */
  lemma FieldsDetermine(c: Config, d: Config)
    requires c.Keys == FieldKeys && d.Keys == FieldKeys
    requires forall i :: 0 <= i < |Fields| ==> d[Key(Fields[i])] == c[Key(Fields[i])]
    ensures d == c
  {
    assert Key(Fields[0]) == "host" && Key(Fields[1]) == "port";
    assert Key(Fields[2]) == "log" && Key(Fields[3]) == "graphiql";
  }

  /** Validating a resolved configuration gives it back unchanged. */
  lemma ResolvedValidatesToItself(c: Config, existing: set<string>)
    requires WellFormed(c, existing)
    ensures ValidateFields(Fields, EntryOf(c, existing)) == Ok(c)
  {
    var entry := EntryOf(c, existing);
    forall i | 0 <= i < |Fields|
      ensures entry(Fields[i]) == Ok(c[Key(Fields[i])])
    {
      EntryFixpoint(c, Fields[i], existing);
    }
    var r := ValidateFields(Fields, entry);
    assert KeysOf(Fields) == FieldKeys;
    FieldsDetermine(c, r.value);
  }

  /**
   * Validation fixes exactly the resolved configurations: validating a
   * configuration gives it back unchanged if and only if it is well formed.
   */
  lemma ResolvedIsFixpoint(c: Config, existing: set<string>)
    ensures WellFormed(c, existing) <==> ValidateFields(Fields, EntryOf(c, existing)) == Ok(c)
  {
    if WellFormed(c, existing) {
      ResolvedValidatesToItself(c, existing);
    }
    if ValidateFields(Fields, EntryOf(c, existing)) == Ok(c) {
      ValidatedWellFormed(c, existing);
    }
  }

  /** Reading a file that already holds a resolved configuration yields exactly that configuration. */
  lemma ReadResolvedDocument(confFile: Option<string>, env: Env)
    requires Exists(env.existing, ConfPath(confFile, env))
    requires WellFormed(Document(confFile, env), env.existing)
    ensures ReadConfig(confFile, env) == Ok(Document(confFile, env))
  {
    ResolvedIsFixpoint(Document(confFile, env), env.existing);
  }

  // ---------------------------------------------------------------------------
  // Merging
  // ---------------------------------------------------------------------------

  /** With nothing given on the command line, the merge returns the file configuration. */
  lemma MergeEmptyShell(config: Config)
    requires "log" in config
    ensures MergeConfigs(config, map[]) == config
  {
    var out := MergeConfigs(config, map[]);
    assert forall k :: k in config ==> out[k] == config[k];
  }

  /** Overriding a configuration with itself changes nothing. */
  lemma MergeSelf(config: Config)
    requires "log" in config && config["log"].RMap?
    ensures MergeConfigs(config, config) == config
  {
    var out := MergeConfigs(config, config);
    assert out["log"].m == config["log"].m;
    assert forall k :: k in config ==> out[k] == config[k];
  }

  /** Applying the same overrides twice is the same as applying them once. */
  lemma MergeIdempotent(config: Config, shell: Config)
    requires Mergeable(config, shell)
    ensures Mergeable(MergeConfigs(config, shell), shell)
    ensures MergeConfigs(MergeConfigs(config, shell), shell) == MergeConfigs(config, shell)
  {
    var once := MergeConfigs(config, shell);
    var twice := MergeConfigs(once, shell);
    if "log" in shell {
      assert twice["log"].m == once["log"].m;
    }
    assert forall k :: k in once ==> twice[k] == once[k];
  }

  /** The shell side only ever replaces values: keys it names that the file side lacks are dropped. */
  lemma ShellOnlyKeysDropped(config: Config, shell: Config, k: string)
    requires Mergeable(config, shell)
    requires k in shell && k !in config
    ensures k !in MergeConfigs(config, shell)
  {
  }

  /** Log overrides that each have the type and range `_validate_log` guarantees. */
  predicate SoundLogOverrides(m: map<string, Raw>, existing: set<string>) {
    && ("level" in m ==> m["level"].RStr? && m["level"].s in Levels)
    && ("syslog" in m ==> m["syslog"].RBool?)
    && ("log_file" in m ==>
          m["log_file"].RStr? && m["log_file"].s != "" && Exists(existing, DirName(m["log_file"].s)))
  }

  /** Overrides that each have the type and range their field's validator guarantees. */
  predicate SoundOverrides(shell: Config, existing: set<string>) {
    && (forall f: Field :: f != Log && Key(f) in shell ==> FieldValid(f, shell[Key(f)], existing))
    && ("log" in shell ==> shell["log"].RMap? && SoundLogOverrides(shell["log"].m, existing))
  }

  /**
   * The merge does not validate; it keeps a resolved configuration resolved
   * only when every override is itself valid.
   */
  lemma MergePreservesWellFormed(config: Config, shell: Config, existing: set<string>)
    requires WellFormed(config, existing)
    requires SoundOverrides(shell, existing)
    ensures Mergeable(config, shell)
    ensures WellFormed(MergeConfigs(config, shell), existing)
  {
    assert Key(Log) == "log" && FieldValid(Log, config[Key(Log)], existing);
    var out := MergeConfigs(config, shell);
    forall f: Field
      ensures Key(f) in out && FieldValid(f, out[Key(f)], existing)
    {
      if f != Log {
        assert Key(f) != "log";
        assert FieldValid(f, config[Key(f)], existing);
      }
    }
  }
}

=== FILE: ipaddress.dfy ===
/**
 * Acceptance by CPython's `ipaddress.IPv4Address` and `ipaddress.IPv6Address`
 * (Python 3.9.5 and later) on strings: the checks that decide whether the
 * constructor raises `AddressValueError`. The integer value of an address is
 * not modelled; where it matters (the octets of a dotted quad) it is returned.
 */
module IpAddress {
  import opened Wrappers
  import opened Strings

  /**
   * One octet as `_parse_octet` accepts it: one to three ASCII digits, no
   * leading zero unless the octet is "0", value at most 255.
   */
  predicate ValidOctet(o: string) {
    && o != ""
    && AllDigits(o)
    && |o| <= 3
    && (o != "0" ==> o[0] != '0')
    && ParseDecimal(o) <= 255
  }

  /** `IPv4Address(s)`: the four octet values, or None where the constructor raises. */
  function ParseIPv4(s: string): (r: Option<seq<nat>>)
    ensures r.Some? ==> |r.value| == 4 && forall i :: 0 <= i < 4 ==> r.value[i] <= 255
  {
    var octets := Split(s, '.');
    if s == "" || '/' in s || |octets| != 4 then None
    else if !(forall i :: 0 <= i < 4 ==> ValidOctet(octets[i])) then None
    else Some(seq(4, i requires 0 <= i < 4 => ParseDecimal(octets[i])))
  }

  predicate IsIPv4(s: string) {
    ParseIPv4(s).Some?
  }

  predicate IsQuad(q: seq<nat>) {
    |q| == 4 && forall i :: 0 <= i < 4 ==> q[i] <= 255
  }

  /** The dotted-quad text of four octet values, as `str(IPv4Address(...))` prints it. */
  function FormatIPv4(q: seq<nat>): string
    requires IsQuad(q)
  {
    Join(seq(4, i requires 0 <= i < 4 => NatToString(q[i])), '.')
  }

  lemma OctetOfValue(n: nat)
    requires n <= 255
    ensures ValidOctet(NatToString(n)) && ParseDecimal(NatToString(n)) == n
  {
    NatToStringShort(n);
    ParseNatToString(n);
  }

  /** Every quad prints to a text that parses back to it. */
  lemma ParseFormatIPv4(q: seq<nat>)
    requires IsQuad(q)
    ensures ParseIPv4(FormatIPv4(q)) == Some(q)
  {
    var parts := seq(4, i requires 0 <= i < 4 => NatToString(q[i]));
    forall i | 0 <= i < 4
      ensures ValidOctet(parts[i]) && ParseDecimal(parts[i]) == q[i]
      ensures '.' !in parts[i] && '/' !in parts[i]
    {
      OctetOfValue(q[i]);
    }
    SplitJoin(parts, '.');
    JoinExcludes(parts, '.', '/');
    var s := FormatIPv4(q);
    assert s == parts[0] + ['.'] + Join(parts[1..], '.');
    assert s != "";
    assert Split(s, '.') == parts;
    assert seq(4, i requires 0 <= i < 4 => ParseDecimal(parts[i])) == q;
  }

  /** An accepted text is exactly the printed form of its octets: there is one spelling per address. */
  lemma FormatParseIPv4(s: string)
    requires IsIPv4(s)
    ensures FormatIPv4(ParseIPv4(s).value) == s
  {
    var octets := Split(s, '.');
    var q := ParseIPv4(s).value;
    forall i | 0 <= i < 4
      ensures NatToString(q[i]) == octets[i]
    {
      NatToStringParse(octets[i]);
    }
    assert seq(4, i requires 0 <= i < 4 => NatToString(q[i])) == octets;
    JoinSplit(s, '.');
  }

  /** Four octets joined by dots make an IPv4 address. */
  lemma QuadAccepted(parts: seq<string>)
    requires |parts| == 4
    requires forall i :: 0 <= i < 4 ==> ValidOctet(parts[i]) && '.' !in parts[i] && '/' !in parts[i]
    ensures IsIPv4(Join(parts, '.'))
  {
    SplitJoin(parts, '.');
    JoinExcludes(parts, '.', '/');
    JoinHead(parts, '.');
  }

  /** A group of an IPv6 address as `_parse_hextet` accepts it: one to four hex digits. */
  predicate ValidHextet(h: string) {
    1 <= |h| <= 4 && forall i :: 0 <= i < |h| ==> IsHexDigit(h[i])
  }

  /**
   * `_split_scope_id`: the address before the first '%', or None when the
   * scope id after it is empty or holds another '%'.
   */
  function SplitScope(s: string): Option<string> {
    var pieces := Split(s, '%');
    if |pieces| == 1 || (|pieces| == 2 && pieces[1] != "") then Some(pieces[0]) else None
  }

  function HexDigitChar(d: nat): (c: char)
    requires d < 16
    ensures IsHexDigit(c)
  {
    if d < 10 then DigitChar(d) else ('a' as int + d - 10) as char
  }

  /** `'%x' % n` */
  function NatToHex(n: nat): (s: string)
    ensures |s| > 0 && forall i :: 0 <= i < |s| ==> IsHexDigit(s[i])
  {
    if n < 16 then [HexDigitChar(n)] else NatToHex(n / 16) + [HexDigitChar(n % 16)]
  }

  lemma NatToHexShort(n: nat)
    requires n < 65536
    ensures |NatToHex(n)| <= 4
  {
    if n >= 16 {
      var m := n / 16;
      assert m < 4096;
      if m >= 16 {
        var m' := m / 16;
        assert m' < 256;
        if m' >= 16 {
          assert m' / 16 < 16;
          assert |NatToHex(m')| == 2;
        }
        assert |NatToHex(m)| <= 3;
      }
    }
  }

  /**
   * A dotted-quad tail such as "::ffff:1.2.3.4" is replaced by the two groups
   * it stands for; None when that tail is not an IPv4 address.
   */
  function EmbedIPv4(parts: seq<string>): (r: Option<seq<string>>)
    requires |parts| > 0
    ensures r.Some? ==> |r.value| >= |parts|
  {
    var last := parts[|parts| - 1];
    if '.' !in last then Some(parts)
    else
      match ParseIPv4(last)
      case None => None
      case Some(q) =>
        Some(parts[..|parts| - 1] + [NatToHex(q[0] * 256 + q[1]), NatToHex(q[2] * 256 + q[3])])
  }

  /** The positions in [lo, hi) that hold an empty part, in increasing order. */
  function EmptiesBetween(parts: seq<string>, lo: nat, hi: nat): (r: seq<nat>)
    requires hi <= |parts|
    ensures forall j :: 0 <= j < |r| ==> lo <= r[j] < hi && parts[r[j]] == ""
    ensures forall i :: i in r <==> lo <= i < hi && parts[i] == ""
    ensures forall a, b :: 0 <= a < b < |r| ==> r[a] < r[b]
    decreases hi - lo
  {
    if lo >= hi then []
    else
      var rest := EmptiesBetween(parts, lo + 1, hi);
      (if parts[lo] == "" then [lo] else []) + rest
  }

  /**
   * The layout check of `_ip_int_from_string` on the ':'-separated parts: at
   * most one inner empty part (the "::"), a leading or trailing empty part only
   * as half of a "::" at that end, a "::" standing for at least one group, and
   * exactly eight groups without one; every group outside the "::" a hextet.
   */
  predicate HextetLayout(parts: seq<string>)
    requires |parts| >= 2
  {
    var last := |parts| - 1;
    var skips := EmptiesBetween(parts, 1, last);
    if |skips| > 1 then false
    else if |skips| == 1 then
      var k := skips[0];
      var hi := if parts[0] == "" then 0 else k;
      var lo := if parts[last] == "" then 0 else last - k;
      && (parts[0] == "" ==> k == 1)
      && (parts[last] == "" ==> k == last - 1)
      && hi + lo < 8
      && (forall i :: 0 <= i < hi ==> ValidHextet(parts[i]))
      && (forall i :: last - lo < i <= last ==> ValidHextet(parts[i]))
    else
      && |parts| == 8
      && parts[0] != ""
      && parts[last] != ""
      && forall i :: 0 <= i < |parts| ==> ValidHextet(parts[i])
  }

  /** `IPv6Address(s)` does not raise. */
  predicate IsIPv6(s: string) {
    && '/' !in s
    && var addr := SplitScope(s);
       && addr.Some?
       && addr.value != ""
       && var raw := Split(addr.value, ':');
          && |raw| >= 3
          && var parts := EmbedIPv4(raw);
             && parts.Some?
             && |parts.value| <= 9
             && HextetLayout(parts.value)
  }

  lemma HextetExcludes(h: string)
    requires ValidHextet(h)
    ensures ':' !in h && '.' !in h && '/' !in h && '%' !in h && h != ""
  {
  }

  /** A text without '%' has no scope id. */
  lemma NoScope(s: string)
    requires '%' !in s
    ensures SplitScope(s) == Some(s)
  {
    SplitNoSeparator(s, '%');
  }

  lemma JoinNonEmpty(parts: seq<string>, sep: char)
    requires |parts| >= 2
    ensures Join(parts, sep) != ""
  {
    assert Join(parts, sep) == parts[0] + [sep] + Join(parts[1..], sep);
  }

  lemma ColonJoinNoSlash(parts: seq<string>)
    requires |parts| >= 3
    requires forall i :: 0 <= i < |parts| ==> ':' !in parts[i] && '/' !in parts[i] && '%' !in parts[i]
    requires '.' !in parts[|parts| - 1]
    ensures '/' !in Join(parts, ':')
  {
    JoinExcludes(parts, ':', '/');
  }

  lemma ColonJoinNoScope(parts: seq<string>)
    requires |parts| >= 3
    requires forall i :: 0 <= i < |parts| ==> ':' !in parts[i] && '/' !in parts[i] && '%' !in parts[i]
    requires '.' !in parts[|parts| - 1]
    ensures SplitScope(Join(parts, ':')) == Some(Join(parts, ':'))
  {
    JoinExcludes(parts, ':', '%');
    NoScope(Join(parts, ':'));
  }

  lemma ColonJoinSplits(parts: seq<string>)
    requires |parts| >= 3
    requires forall i :: 0 <= i < |parts| ==> ':' !in parts[i] && '/' !in parts[i] && '%' !in parts[i]
    requires '.' !in parts[|parts| - 1]
    ensures Split(Join(parts, ':'), ':') == parts
  {
    SplitJoin(parts, ':');
  }

  /** Without a '.' in the last part there is no embedded IPv4 tail. */
  lemma NoEmbeddedIPv4(parts: seq<string>)
    requires |parts| >= 3
    requires forall i :: 0 <= i < |parts| ==> ':' !in parts[i] && '/' !in parts[i] && '%' !in parts[i]
    requires '.' !in parts[|parts| - 1]
    ensures EmbedIPv4(parts) == Some(parts)
  {
  }

  /** The steps of `IPv6Address` before the layout check, on colon-joined parts. */
  lemma LayoutPrelude(parts: seq<string>)
    requires |parts| >= 3
    requires forall i :: 0 <= i < |parts| ==> ':' !in parts[i] && '/' !in parts[i] && '%' !in parts[i]
    requires '.' !in parts[|parts| - 1]
    ensures '/' !in Join(parts, ':')
    ensures SplitScope(Join(parts, ':')) == Some(Join(parts, ':'))
    ensures Join(parts, ':') != ""
    ensures Split(Join(parts, ':'), ':') == parts
    ensures EmbedIPv4(parts) == Some(parts)
  {
    ColonJoinNoSlash(parts);
    ColonJoinNoScope(parts);
    ColonJoinSplits(parts);
    NoEmbeddedIPv4(parts);
    JoinNonEmpty(parts, ':');
  }

  /**
   * For colon-free parts, acceptance of their colon-joined text is decided by
   * the part count and the layout check alone.
   */
  lemma LayoutDecides(parts: seq<string>)
    requires |parts| >= 3
    requires forall i :: 0 <= i < |parts| ==> ':' !in parts[i] && '/' !in parts[i] && '%' !in parts[i]
    requires '.' !in parts[|parts| - 1]
    ensures IsIPv6(Join(parts, ':')) <==> |parts| <= 9 && HextetLayout(parts)
  {
    LayoutPrelude(parts);
  }

  /** The uncompressed form: eight hextets separated by colons is accepted. */
  lemma IPv6FullForm(groups: seq<string>)
    requires |groups| == 8
    requires forall i :: 0 <= i < 8 ==> ValidHextet(groups[i])
    ensures IsIPv6(Join(groups, ':'))
  {
    forall i | 0 <= i < 8
      ensures ':' !in groups[i] && '.' !in groups[i] && '/' !in groups[i] && '%' !in groups[i]
      ensures groups[i] != ""
    {
      HextetExcludes(groups[i]);
    }
    NoEmpties(groups, 1, 7);
    LayoutDecides(groups);
  }

  lemma {:induction false} NoEmpties(parts: seq<string>, lo: nat, hi: nat)
    requires hi <= |parts|
    requires forall i :: lo <= i < hi ==> parts[i] != ""
    ensures EmptiesBetween(parts, lo, hi) == []
    decreases hi - lo
  {
    if lo < hi {
      NoEmpties(parts, lo + 1, hi);
    }
  }

  lemma {:induction false} SingleEmpty(parts: seq<string>, k: nat, lo: nat)
    requires 1 <= lo <= k < |parts| - 1 && parts[k] == ""
    requires forall i :: 0 <= i < |parts| && i != k ==> parts[i] != ""
    ensures EmptiesBetween(parts, lo, |parts| - 1) == [k]
    decreases k - lo
  {
    var last := |parts| - 1;
    if lo == k {
      NoEmpties(parts, k + 1, last);
      assert EmptiesBetween(parts, lo, last) == [lo] + EmptiesBetween(parts, lo + 1, last);
    } else {
      SingleEmpty(parts, k, lo + 1);
      assert EmptiesBetween(parts, lo, last) == [] + EmptiesBetween(parts, lo + 1, last);
    }
  }

  lemma JoinAfterEmpty(lo: seq<string>)
    requires |lo| >= 1
    ensures Join([""] + lo, ':') == [':'] + Join(lo, ':')
  {
    var tail := [""] + lo;
    assert tail[1..] == lo;
    assert tail[0] == "";
  }

  lemma RegroupParts(hi: seq<string>, lo: seq<string>)
    ensures hi + [""] + lo == hi + ([""] + lo)
  {
  }

  lemma RegroupColons(a: string, b: string)
    ensures a + [':'] + ([':'] + b) == a + "::" + b
  {
  }

  lemma JoinAroundEmpty(hi: seq<string>, lo: seq<string>)
    requires |hi| >= 1 && |lo| >= 1
    ensures Join(hi + [""] + lo, ':') == Join(hi, ':') + "::" + Join(lo, ':')
  {
    JoinConcat(hi, [""] + lo, ':');
    JoinAfterEmpty(lo);
    RegroupParts(hi, lo);
    RegroupColons(Join(hi, ':'), Join(lo, ':'));
  }

  /** Groups, one empty part, groups: the layout of a compressed address. */
  lemma CompressedLayout(parts: seq<string>, k: nat)
    requires 1 <= k < |parts| - 1 && |parts| <= 8 && parts[k] == ""
    requires forall i :: 0 <= i < |parts| && i != k ==> ValidHextet(parts[i])
    ensures HextetLayout(parts)
  {
    forall i | 0 <= i < |parts| && i != k
      ensures parts[i] != ""
    {
      HextetExcludes(parts[i]);
    }
    SingleEmpty(parts, k, 1);
  }

  /** The compressed form: groups, "::", groups, with at least one group left out, is accepted. */
  lemma IPv6Compressed(hi: seq<string>, lo: seq<string>)
    requires |hi| >= 1 && |lo| >= 1 && |hi| + |lo| <= 7
    requires forall i :: 0 <= i < |hi| ==> ValidHextet(hi[i])
    requires forall i :: 0 <= i < |lo| ==> ValidHextet(lo[i])
    ensures IsIPv6(Join(hi, ':') + "::" + Join(lo, ':'))
  {
    var parts := hi + [""] + lo;
    JoinAroundEmpty(hi, lo);
    forall i | 0 <= i < |parts|
      ensures ':' !in parts[i] && '.' !in parts[i] && '/' !in parts[i] && '%' !in parts[i]
      ensures i != |hi| ==> ValidHextet(parts[i])
    {
      if i < |hi| {
        HextetExcludes(hi[i]);
      } else if i > |hi| {
        HextetExcludes(lo[i - |hi| - 1]);
      }
    }
    CompressedLayout(parts, |hi|);
    LayoutDecides(parts);
  }

  /** A dotted quad's text contains a '.'. */
  lemma DottedQuadHasDot(q: seq<nat>)
    requires IsQuad(q)
    ensures '.' in FormatIPv4(q)
  {
    var ps := seq(4, i requires 0 <= i < 4 => NatToString(q[i]));
    assert FormatIPv4(q) == ps[0] + ['.'] + Join(ps[1..], '.');
    assert FormatIPv4(q)[|ps[0]|] == '.';
  }

  /** A dotted-quad tail is replaced by two hextets, the high and the low half of the address. */
  lemma EmbeddedQuadGroups(parts: seq<string>, q: seq<nat>)
    requires |parts| > 0 && IsQuad(q) && parts[|parts| - 1] == FormatIPv4(q)
    ensures EmbedIPv4(parts) ==
      Some(parts[..|parts| - 1] + [NatToHex(q[0] * 256 + q[1]), NatToHex(q[2] * 256 + q[3])])
    ensures ValidHextet(NatToHex(q[0] * 256 + q[1])) && ValidHextet(NatToHex(q[2] * 256 + q[3]))
  {
    ParseFormatIPv4(q);
    DottedQuadHasDot(q);
    NatToHexShort(q[0] * 256 + q[1]);
    NatToHexShort(q[2] * 256 + q[3]);
  }

  /** The IPv4-mapped form is the tail after two empty parts and "ffff", joined by ':'. */
  lemma MappedText(tail: string)
    ensures Join(["", "", "ffff", tail], ':') == "::ffff:" + tail
  {
    var raw := ["", "", "ffff", tail];
    assert raw[1..][1..][1..] == [tail];
    assert Join(raw[1..][1..], ':') == "ffff" + [':'] + tail;
  }

  /** The steps of `IPv6Address` before the layout check, on the IPv4-mapped form. */
  lemma MappedPrelude(tail: string)
    requires ':' !in tail && '/' !in tail && '%' !in tail
    ensures '/' !in Join(["", "", "ffff", tail], ':')
    ensures SplitScope(Join(["", "", "ffff", tail], ':')) == Some(Join(["", "", "ffff", tail], ':'))
    ensures Split(Join(["", "", "ffff", tail], ':'), ':') == ["", "", "ffff", tail]
  {
    var raw := ["", "", "ffff", tail];
    JoinExcludes(raw, ':', '/');
    JoinExcludes(raw, ':', '%');
    NoScope(Join(raw, ':'));
    SplitJoin(raw, ':');
  }

  /** A leading "::", then "ffff" and two hextets, passes the layout check. */
  lemma MappedLayout(parts: seq<string>)
    requires |parts| == 5 && parts[0] == "" && parts[1] == "" && parts[2] == "ffff"
    requires ValidHextet(parts[3]) && ValidHextet(parts[4])
    ensures HextetLayout(parts)
  {
    HextetExcludes(parts[3]);
    NoEmpties(parts, 2, 4);
    assert EmptiesBetween(parts, 1, 4) == [1];
    assert ValidHextet(parts[2]);
    forall i | 1 < i <= 4
      ensures ValidHextet(parts[i])
    {
    }
  }

  /** The IPv4-mapped form whose tail embeds as two hextets is accepted. */
  lemma MappedAccepted(tail: string, h1: string, h2: string)
    requires ':' !in tail && '/' !in tail && '%' !in tail
    requires EmbedIPv4(["", "", "ffff", tail]) == Some(["", "", "ffff", h1, h2])
    requires ValidHextet(h1) && ValidHextet(h2)
    ensures IsIPv6(Join(["", "", "ffff", tail], ':'))
  {
    MappedPrelude(tail);
    MappedLayout(["", "", "ffff", h1, h2]);
  }

  /** The IPv4-mapped form "::ffff:a.b.c.d" is accepted for every dotted quad. */
  lemma IPv4MappedAccepted(q: seq<nat>)
    requires IsQuad(q)
    ensures IsIPv6("::ffff:" + FormatIPv4(q))
  {
    var ps := seq(4, i requires 0 <= i < 4 => NatToString(q[i]));
    forall i | 0 <= i < 4
      ensures ':' !in ps[i] && '/' !in ps[i] && '%' !in ps[i]
    {
      OctetOfValue(q[i]);
    }
    JoinExcludes(ps, '.', ':');
    JoinExcludes(ps, '.', '/');
    JoinExcludes(ps, '.', '%');
    var tail := FormatIPv4(q);
    EmbeddedQuadGroups(["", "", "ffff", tail], q);
    var h1, h2 := NatToHex(q[0] * 256 + q[1]), NatToHex(q[2] * 256 + q[3]);
    assert ["", "", "ffff", tail][..3] + [h1, h2] == ["", "", "ffff", h1, h2];
    MappedAccepted(tail, h1, h2);
    MappedText(tail);
  }
}

=== FILE: paths.dfy ===
/**
 * The parts of Python's `posixpath` and `os.path.exists` the configuration
 * code relies on. Which paths exist is an oracle: a set of existing paths.
 */
module Paths {

  /**
   * `os.path.exists(p)`: true for the paths in `existing`. The empty path
   * never exists, since `os.stat("")` fails.
   */
  predicate Exists(existing: set<string>, p: string) {
    p != "" && p in existing
  }

  /** `posixpath.join(a, b)` for two components. */
  function PathJoin(a: string, b: string): string {
    if |b| > 0 && b[0] == '/' then b
    else if a == "" || a[|a| - 1] == '/' then a + b
    else a + "/" + b
  }

  /** The joined name ends the result; an absolute name replaces the directory, otherwise the directory starts it. */
  lemma JoinKeepsParts(a: string, b: string)
    ensures |PathJoin(a, b)| >= |b| && PathJoin(a, b)[|PathJoin(a, b)| - |b|..] == b
    ensures |b| > 0 && b[0] == '/' ==> PathJoin(a, b) == b
    ensures a != "" && (|b| == 0 || b[0] != '/') ==> a <= PathJoin(a, b)
  {
  }

  /** `p.rfind('/') + 1`: the position just after the last slash, 0 when there is none. */
  function HeadLength(p: string): (i: nat)
    ensures i <= |p|
    ensures '/' !in p[i..]
    ensures i > 0 ==> p[i - 1] == '/'
  {
    if p == [] then 0
    else if p[|p| - 1] == '/' then |p|
    else
      var i := HeadLength(p[..|p| - 1]);
      assert p[i..] == p[..|p| - 1][i..] + [p[|p| - 1]];
      i
  }

  predicate AllSlashes(s: string) {
    forall i :: 0 <= i < |s| ==> s[i] == '/'
  }

  /** `s.rstrip('/')` */
  function RStripSlashes(s: string): (r: string)
    ensures r <= s
    ensures r == [] || r[|r| - 1] != '/'
  {
    if s != [] && s[|s| - 1] == '/' then RStripSlashes(s[..|s| - 1]) else s
  }

  /**
   * `posixpath.dirname(p)`: everything up to the last slash, with trailing
   * slashes removed unless the head consists of slashes only.
   */
  function DirName(p: string): (d: string)
    ensures d <= p
  {
    var head := p[..HeadLength(p)];
    if head != "" && !AllSlashes(head) then RStripSlashes(head) else head
  }

  lemma {:induction false} HeadLengthSkipsName(x: string, f: string)
    requires |x| > 0 && x[|x| - 1] == '/'
    requires '/' !in f
    ensures HeadLength(x + f) == |x|
  {
    if f != [] {
      assert (x + f)[..|x + f| - 1] == x + f[..|f| - 1];
      assert (x + f)[|x + f| - 1] == f[|f| - 1];
      HeadLengthSkipsName(x, f[..|f| - 1]);
    }
  }

  /** A bare file name has no directory part. */
  lemma DirNameOfBareName(p: string)
    requires '/' !in p
    ensures DirName(p) == ""
  {
  }

  /** `dirname` undoes `join` of a directory and a file name. */
  lemma DirNameOfJoin(d: string, f: string)
    requires d != "" && d[|d| - 1] != '/'
    requires '/' !in f
    ensures DirName(PathJoin(d, f)) == d
  {
    var x := d + "/";
    assert PathJoin(d, f) == x + f;
    HeadLengthSkipsName(x, f);
    assert (x + f)[..|x|] == x;
    assert x[|x| - 2] == d[|d| - 1];
    assert !AllSlashes(x);
    assert x[..|x| - 1] == d;
    assert RStripSlashes(x) == RStripSlashes(d) == d;
  }

  /** A file directly under the root has the root as its directory. */
  lemma DirNameAtRoot(f: string)
    requires '/' !in f
    ensures DirName("/" + f) == "/"
  {
    HeadLengthSkipsName("/", f);
    assert ("/" + f)[..1] == "/";
  }
}

=== FILE: strings.dfy ===
/**
 * Character and string helpers with the meaning Python gives them:
 * `int(s, 10)`, `str(n)`, `str.split`, `str.join`, `str.lower`, `str.upper`
 * and the `in` test on substrings.
 */
module Strings {

  predicate IsDigit(c: char) {
    '0' <= c <= '9'
  }

  predicate IsHexDigit(c: char) {
    IsDigit(c) || 'a' <= c <= 'f' || 'A' <= c <= 'F'
  }

  predicate AllDigits(s: string) {
    forall i :: 0 <= i < |s| ==> IsDigit(s[i])
  }

  /** A decimal numeral as `str(n)` writes it: no sign, no leading zero except for "0" itself. */
  predicate Canonical(s: string) {
    && |s| > 0
    && AllDigits(s)
    && (s[0] == '0' ==> |s| == 1)
  }

  function DigitChar(d: nat): (c: char)
    requires d < 10
    ensures IsDigit(c)
  {
    ('0' as int + d) as char
  }

  /** The value of a string of decimal digits, as `int(s, 10)`; the empty string is 0. */
  function ParseDecimal(s: string): nat
    requires AllDigits(s)
  {
    if s == [] then 0 else 10 * ParseDecimal(s[..|s| - 1]) + (s[|s| - 1] as int - '0' as int)
  }

  /** `str(n)` for a natural number. */
  function NatToString(n: nat): (s: string)
    ensures Canonical(s)
  {
    if n < 10 then [DigitChar(n)] else NatToString(n / 10) + [DigitChar(n % 10)]
  }

  /** `str(i)` for any integer: a minus sign in front of the magnitude when negative. */
  function IntToString(i: int): (s: string)
    ensures |s| > 0
  {
    if i < 0 then "-" + NatToString(-i) else NatToString(i)
  }

  lemma {:induction false} ParseNatToString(n: nat)
    ensures ParseDecimal(NatToString(n)) == n
  {
    if n >= 10 {
      var s := NatToString(n);
      assert s[..|s| - 1] == NatToString(n / 10);
      ParseNatToString(n / 10);
    }
  }

  lemma {:induction false} ParsePositive(s: string)
    requires |s| > 0 && AllDigits(s) && s[0] != '0'
    ensures ParseDecimal(s) > 0
  {
    if |s| > 1 {
      ParsePositive(s[..|s| - 1]);
    }
  }

  /** Decimal rendering and parsing are inverse on canonical numerals. */
  lemma {:induction false} NatToStringParse(s: string)
    requires Canonical(s)
    ensures NatToString(ParseDecimal(s)) == s
  {
    if |s| > 1 {
      var p := s[..|s| - 1];
      var d := s[|s| - 1] as int - '0' as int;
      ParsePositive(p);
      NatToStringParse(p);
      var n := ParseDecimal(s);
      assert n == 10 * ParseDecimal(p) + d;
      assert n / 10 == ParseDecimal(p) && n % 10 == d;
      assert s == p + [DigitChar(d)];
    }
  }

  lemma NatToStringShort(n: nat)
    requires n < 1000
    ensures |NatToString(n)| <= 3
  {
    if n >= 10 {
      var m := n / 10;
      assert m < 100;
      if m >= 10 {
        assert m / 10 < 10;
        assert |NatToString(m)| == 2;
      }
    }
  }

  /** `s.split(sep)`: the pieces between separators, always at least one. */
  function Split(s: string, sep: char): (parts: seq<string>)
    ensures |parts| > 0
    ensures forall i :: 0 <= i < |parts| ==> sep !in parts[i]
  {
    if s == [] then [""]
    else
      var rest := Split(s[1..], sep);
      if s[0] == sep then [""] + rest else [[s[0]] + rest[0]] + rest[1..]
  }

  /** `sep.join(parts)` for a non-empty list of parts. */
  function Join(parts: seq<string>, sep: char): string
    requires |parts| > 0
  {
    if |parts| == 1 then parts[0] else parts[0] + [sep] + Join(parts[1..], sep)
  }

  /** Joining the pieces of a split gives the string back. */
  lemma {:induction false} JoinSplit(s: string, sep: char)
    ensures Join(Split(s, sep), sep) == s
  {
    if s != [] {
      var rest := Split(s[1..], sep);
      JoinSplit(s[1..], sep);
      if s[0] == sep {
        assert Split(s, sep)[1..] == rest;
      } else {
        var parts := Split(s, sep);
        assert parts[1..] == rest[1..];
        if |rest| > 1 {
          assert Join(rest, sep) == rest[0] + [sep] + Join(rest[1..], sep);
        }
      }
    }
  }

  lemma {:induction false} SplitNoSeparator(a: string, sep: char)
    requires sep !in a
    ensures Split(a, sep) == [a]
  {
    if a != [] {
      SplitNoSeparator(a[1..], sep);
      assert [a[0]] + a[1..] == a;
    }
  }

  lemma {:induction false} SplitAfterPiece(a: string, t: string, sep: char)
    requires sep !in a
    ensures Split(a + [sep] + t, sep) == [a] + Split(t, sep)
  {
    var s := a + [sep] + t;
    if a == [] {
      assert s[1..] == t;
    } else {
      assert s[1..] == a[1..] + [sep] + t;
      SplitAfterPiece(a[1..], t, sep);
      assert [a[0]] + a[1..] == a;
    }
  }

  /** Splitting the join of separator-free pieces gives the pieces back. */
  lemma {:induction false} SplitJoin(parts: seq<string>, sep: char)
    requires |parts| > 0
    requires forall i :: 0 <= i < |parts| ==> sep !in parts[i]
    ensures Split(Join(parts, sep), sep) == parts
  {
    if |parts| == 1 {
      SplitNoSeparator(parts[0], sep);
    } else {
      SplitJoin(parts[1..], sep);
      SplitAfterPiece(parts[0], Join(parts[1..], sep), sep);
      assert [parts[0]] + parts[1..] == parts;
    }
  }

  lemma {:induction false} JoinConcat(a: seq<string>, b: seq<string>, sep: char)
    requires |a| > 0 && |b| > 0
    ensures Join(a + b, sep) == Join(a, sep) + [sep] + Join(b, sep)
  {
    if |a| > 1 {
      JoinConcat(a[1..], b, sep);
      assert (a + b)[1..] == a[1..] + b;
    } else {
      assert (a + b)[1..] == b;
    }
  }

  /** A character that is neither the separator nor in any piece is not in the join. */
  lemma {:induction false} JoinExcludes(parts: seq<string>, sep: char, c: char)
    requires |parts| > 0 && c != sep
    requires forall i :: 0 <= i < |parts| ==> c !in parts[i]
    ensures c !in Join(parts, sep)
  {
    if |parts| > 1 {
      JoinExcludes(parts[1..], sep, c);
    }
  }

  lemma JoinHead(parts: seq<string>, sep: char)
    requires |parts| > 0 && parts[0] != ""
    ensures Join(parts, sep) != "" && Join(parts, sep)[0] == parts[0][0]
  {
  }

  function LowerChar(c: char): char {
    if 'A' <= c <= 'Z' then (c as int + 32) as char else c
  }

  /**
   * `str.upper` on one character. Besides ASCII, the dotless i (U+0131) is the one
   * character whose upper case is a letter of a log-level name.
   */
  function UpperChar(c: char): char {
    if 'a' <= c <= 'z' then (c as int - 32) as char
    else if c == 'ı' then 'I'
    else c
  }

  function Lower(s: string): string {
    seq(|s|, i requires 0 <= i < |s| => LowerChar(s[i]))
  }

  function Upper(s: string): string {
    seq(|s|, i requires 0 <= i < |s| => UpperChar(s[i]))
  }

  /** A string of upper-case ASCII letters is its own upper case. */
  lemma UpperFixed(s: string)
    requires forall i :: 0 <= i < |s| ==> 'A' <= s[i] <= 'Z'
    ensures Upper(s) == s
  {
  }

  /** Python's `sub in s` on strings. */
  predicate Contains(s: string, sub: string) {
    exists i :: 0 <= i <= |s| && OccursAt(s, sub, i)
  }

  predicate OccursAt(s: string, sub: string, i: int) {
    0 <= i && i + |sub| <= |s| && s[i..i + |sub|] == sub
  }

  lemma ContainsSelf(s: string)
    ensures Contains(s, s)
  {
    assert OccursAt(s, s, 0);
  }

  lemma ContainsLeft(a: string, b: string, sub: string)
    requires Contains(b, sub)
    ensures Contains(a + b, sub)
  {
    var i :| 0 <= i <= |b| && OccursAt(b, sub, i);
    assert (a + b)[|a| + i..|a| + i + |sub|] == b[i..i + |sub|];
    assert OccursAt(a + b, sub, |a| + i);
  }

  lemma ContainsRight(a: string, b: string, sub: string)
    requires Contains(a, sub)
    ensures Contains(a + b, sub)
  {
    var i :| 0 <= i <= |a| && OccursAt(a, sub, i);
    assert (a + b)[i..i + |sub|] == a[i..i + |sub|];
    assert OccursAt(a + b, sub, i);
  }

  lemma ContainsTrans(s: string, mid: string, sub: string)
    requires Contains(s, mid) && Contains(mid, sub)
    ensures Contains(s, sub)
  {
    var i :| 0 <= i <= |s| && OccursAt(s, mid, i);
    var j :| 0 <= j <= |mid| && OccursAt(mid, sub, j);
    forall k | 0 <= k < |sub|
      ensures s[i + j + k] == sub[k]
    {
      assert s[i + j + k] == s[i..i + |mid|][j + k] == mid[j + k];
      assert mid[j + k] == mid[j..j + |sub|][k];
    }
    assert s[i + j..i + j + |sub|] == sub;
    assert OccursAt(s, sub, i + j);
  }
}

=== FILE: validator_properties.dfy ===
/**
 * Properties of the field validators: the cases the repository's tests
 * exercise, the exact port bounds, and the fact that each validator gives
 * back an already valid value unchanged.
 */
module ValidatorProperties {
  import opened Wrappers
  import opened Strings
  import opened Paths
  import opened IpAddress
  import opened Values
  import opened Validators

  lemma MixedCaseLocalhostKept()
    ensures ValidateHost(RStr("LocalHost")) == Ok("LocalHost")
  {
    assert Lower("LocalHost") == "localhost";
  }

  /** Every dotted quad is a valid host. */
  lemma DottedQuadAccepted(q: seq<nat>)
    requires IsQuad(q)
    ensures ValidateHost(RStr(FormatIPv4(q))) == Ok(FormatIPv4(q))
  {
    ParseFormatIPv4(q);
  }

  lemma AcceptedHost(h: string)
    requires ValidHost(h)
    ensures ValidateHost(RStr(h)) == Ok(h)
  {
  }

  lemma RejectedHost(h: string)
    requires Lower(h) != "localhost" && !IsIPv4(h) && !IsIPv6(h)
    ensures ValidateHost(RStr(h)).Err?
    ensures Mentions(ValidateHost(RStr(h)).error, h)
  {
  }

  /** A text that starts with a digit is not "localhost" in any letter case. */
  lemma NotLocalhost(h: string)
    requires h != "" && IsDigit(h[0])
    ensures Lower(h) != "localhost"
  {
    assert Lower(h)[0] == h[0];
  }

  /** A dotted text with other than four parts is not an IPv4 address. */
  lemma OctetCountRejected(parts: seq<string>)
    requires |parts| > 0 && |parts| != 4
    requires forall i :: 0 <= i < |parts| ==> '.' !in parts[i]
    ensures !IsIPv4(Join(parts, '.'))
  {
    SplitJoin(parts, '.');
  }

  /** A dotted text with four parts, one of which is not an octet, is not an IPv4 address. */
  lemma OctetRejected(parts: seq<string>, i: nat)
    requires |parts| == 4 && i < 4 && !ValidOctet(parts[i])
    requires forall j :: 0 <= j < |parts| ==> '.' !in parts[j]
    ensures !IsIPv4(Join(parts, '.'))
  {
    SplitJoin(parts, '.');
  }

  /** The loopback host of the repository's tests. */
  lemma LoopbackAccepted(h: string)
    requires h == "127.0.0.1"
    ensures ValidateHost(RStr(h)) == Ok(h)
  {
    var parts := ["127", "0", "0", "1"];
    assert Join(parts, '.') == h;
    assert ValidOctet(parts[0]) && ValidOctet(parts[1]) && ValidOctet(parts[3]);
    QuadAccepted(parts);
    AcceptedHost(h);
  }

  /** A text without ':' is an IPv4 address or nothing. */
  lemma DottedNotIPv6(h: string)
    requires ':' !in h && '%' !in h
    ensures !IsIPv6(h)
  {
    SplitNoSeparator(h, ':');
    SplitNoSeparator(h, '%');
  }

  /**
   * Colon-separated groups starting with a digit, whose layout the IPv6 check
   * refuses, make a host that is rejected and named in the error.
   */
  lemma ColonRejected(parts: seq<string>)
    requires |parts| >= 3 && parts[0] != "" && IsDigit(parts[0][0])
    requires forall i :: 0 <= i < |parts| ==> ':' !in parts[i] && '/' !in parts[i] && '%' !in parts[i] && '.' !in parts[i]
    requires !(|parts| <= 9 && HextetLayout(parts))
    ensures ValidateHost(RStr(Join(parts, ':'))).Err?
    ensures Mentions(ValidateHost(RStr(Join(parts, ':'))).error, Join(parts, ':'))
  {
    var h := Join(parts, ':');
    LayoutDecides(parts);
    JoinExcludes(parts, ':', '.');
    SplitNoSeparator(h, '.');
    JoinHead(parts, ':');
    NotLocalhost(h);
    RejectedHost(h);
  }

  /** Nine groups without a "::" are one too many. */
  lemma NinePartsLayout(parts: seq<string>)
    requires |parts| == 9
    requires forall i :: 0 <= i < 9 ==> parts[i] != ""
    ensures !HextetLayout(parts)
  {
    NoEmpties(parts, 1, 8);
  }

  /** A non-empty first group that is not a hextet is refused, whatever follows it. */
  lemma LongFirstGroupLayout(parts: seq<string>)
    requires |parts| >= 2 && parts[0] != ""
    requires !ValidHextet(parts[0])
    ensures !HextetLayout(parts)
  {
  }

  lemma FiveOctetsRejected(h: string)
    requires h == "1.2.3.4.5"
    ensures ValidateHost(RStr(h)).Err?
    ensures Mentions(ValidateHost(RStr(h)).error, h)
  {
    var parts := ["1", "2", "3", "4", "5"];
    assert Join(parts, '.') == h;
    OctetCountRejected(parts);
    DottedNotIPv6(h);
    NotLocalhost(h);
    RejectedHost(h);
  }

  lemma LongOctetRejected(h: string)
    requires h == "1234.5.6.7"
    ensures ValidateHost(RStr(h)).Err?
    ensures Mentions(ValidateHost(RStr(h)).error, h)
  {
    var parts := ["1234", "5", "6", "7"];
    assert Join(parts, '.') == h;
    assert |parts[0]| > 3;
    OctetRejected(parts, 0);
    DottedNotIPv6(h);
    NotLocalhost(h);
    RejectedHost(h);
  }

  /** The host "1:2:3:4:5:6:7:8:9", given by its groups. */
  lemma NineGroupsRejected(groups: seq<string>)
    requires groups == ["1", "2", "3", "4", "5", "6", "7", "8", "9"]
    ensures ValidateHost(RStr(Join(groups, ':'))).Err?
    ensures Mentions(ValidateHost(RStr(Join(groups, ':'))).error, Join(groups, ':'))
  {
    NinePartsLayout(groups);
    ColonRejected(groups);
  }

  /** The host "12345::1", given by its groups around the "::". */
  lemma LongGroupRejected(groups: seq<string>)
    requires groups == ["12345", "", "1"]
    ensures ValidateHost(RStr(Join(groups, ':'))).Err?
    ensures Mentions(ValidateHost(RStr(Join(groups, ':'))).error, Join(groups, ':'))
  {
    assert !ValidHextet(groups[0]);
    LongFirstGroupLayout(groups);
    ColonRejected(groups);
  }

  /** The host "2001:ff:2::1" of the repository's tests: three groups, "::", one group. */
  lemma CompressedIPv6Accepted(hi: seq<string>, lo: seq<string>)
    requires hi == ["2001", "ff", "2"] && lo == ["1"]
    ensures ValidateHost(RStr(Join(hi, ':') + "::" + Join(lo, ':'))) == Ok(Join(hi, ':') + "::" + Join(lo, ':'))
  {
    assert ValidHextet(hi[0]) && ValidHextet(hi[1]) && ValidHextet(hi[2]) && ValidHextet(lo[0]);
    IPv6Compressed(hi, lo);
  }

  lemma FormatOneToFour(q: seq<nat>)
    requires q == [1, 2, 3, 4]
    ensures IsQuad(q) && FormatIPv4(q) == "1.2.3.4"
  {
    var ps := ["1", "2", "3", "4"];
    assert Join(ps, '.') == "1.2.3.4";
    assert NatToString(1) == "1" && NatToString(2) == "2" && NatToString(3) == "3" && NatToString(4) == "4";
    assert seq(4, i requires 0 <= i < 4 => NatToString(q[i])) == ps;
  }

  /** The IPv4-mapped address "::ffff:1.2.3.4" is accepted as written. */
  lemma MappedIPv4Accepted(h: string)
    requires h == "::ffff:1.2.3.4"
    ensures ValidateHost(RStr(h)) == Ok(h)
  {
    var q := [1, 2, 3, 4];
    FormatOneToFour(q);
    IPv4MappedAccepted(q);
    assert "::ffff:" + FormatIPv4(q) == h;
    AcceptedHost(h);
  }

  /** The port bounds are exclusive: 0 and 65535 are rejected, 1 and 65534 accepted. */
  lemma PortBounds()
    ensures ValidatePort(RInt(0)).Err? && ValidatePort(RInt(65535)).Err?
    ensures ValidatePort(RInt(1)) == Ok(1) && ValidatePort(RInt(65534)) == Ok(65534)
  {
  }

  /** The port -12 of the repository's tests is rejected and shown. */
  lemma NegativePortShown(p: int)
    requires p == -12
    ensures ValidatePort(RInt(p)).Err? && Mentions(ValidatePort(RInt(p)).error, "-12")
  {
    assert NatToString(1) == "1";
    assert NatToString(12) == "12";
    assert IntToString(p) == "-12";
  }

  /** The port 66666 of the repository's tests is rejected and shown. */
  lemma LargePortShown(p: int)
    requires p == 66666
    ensures ValidatePort(RInt(p)).Err? && Mentions(ValidatePort(RInt(p)).error, "66666")
  {
    assert NatToString(6) == "6";
    assert NatToString(66) == "66";
    assert NatToString(666) == "666";
    assert NatToString(6666) == "6666";
    assert IntToString(p) == "66666";
  }

  /** An admitted level is already upper case. */
  lemma LevelUpper(level: string)
    requires level in Levels
    ensures Upper(level) == level
  {
    assert level == "DEBUG" || level == "INFO" || level == "WARNING" || level == "ERROR";
    UpperFixed(level);
  }

  /** A valid log configuration, written out as a dictionary, validates back to itself. */
  lemma LogRoundTrip(l: LogConf, existing: set<string>)
    requires ValidLog(l, existing)
    ensures ValidateLog(l.ToRaw(), existing) == Ok(l)
  {
    var m := l.ToRaw().m;
    assert LevelOf(m) == RStr(l.level);
    LevelUpper(l.level);
    assert SyslogOf(m) == RBool(l.syslog);
    if l.logFile.Some? {
      assert Lookup(m, "log_file") == RStr(l.logFile.value);
    } else {
      assert Lookup(m, "log_file") == RNone;
    }
  }

  /** Validating the settings a successful validation returns gives the same settings again. */
  lemma ValidateLogIdempotent(v: Raw, existing: set<string>)
    requires ValidateLog(v, existing).Ok?
    ensures ValidateLog(ValidateLog(v, existing).value.ToRaw(), existing) == ValidateLog(v, existing)
  {
    LogRoundTrip(ValidateLog(v, existing).value, existing);
  }

  /** An empty log mapping validates to `DEFAULT_LOG_CONF`. */
  lemma EmptyLogIsDefault(existing: set<string>)
    ensures ValidateLog(RMap(map[]), existing) == Ok(DefaultLog)
  {
    UpperFixed("ERROR");
  }

  lemma SyslogOnlyKeepsDefaultLevel(existing: set<string>)
    ensures ValidateLog(RMap(map["syslog" := RBool(true)]), existing) == Ok(LogConf("ERROR", true, None))
  {
    UpperFixed("ERROR");
  }

  lemma LowerCaseLevelUpperCased(existing: set<string>)
    ensures ValidateLog(RMap(map["level" := RStr("debug")]), existing) == Ok(LogConf("DEBUG", false, None))
  {
    assert Upper("debug") == "DEBUG";
  }

  /** "WARN" is not an admitted level; the message lists the admitted ones. */
  lemma WarnRejected(existing: set<string>)
    ensures ValidateLog(RMap(map["level" := RStr("WARN")]), existing).Err?
    ensures Mentions(ValidateLog(RMap(map["level" := RStr("WARN")]), existing).error, InvalidPhrase)
    ensures Mentions(ValidateLog(RMap(map["level" := RStr("WARN")]), existing).error, AllowedLevels)
  {
    UpperFixed("WARN");
  }

  /** The integer 1 is not a boolean syslog flag. */
  lemma IntegerSyslogRejected(existing: set<string>)
    ensures ValidateLog(RMap(map["syslog" := RInt(1)]), existing).Err?
    ensures Mentions(ValidateLog(RMap(map["syslog" := RInt(1)]), existing).error, InvalidPhrase)
    ensures Mentions(ValidateLog(RMap(map["syslog" := RInt(1)]), existing).error, AllowedSyslog)
  {
    UpperFixed("ERROR");
  }

  /** A log file whose directory does not exist is rejected, and the message says so. */
  lemma LogFileRejected(path: string, existing: set<string>)
    requires path != "" && !Exists(existing, DirName(path))
    ensures ValidateLog(RMap(map["log_file" := RStr(path)]), existing).Err?
    ensures Mentions(ValidateLog(RMap(map["log_file" := RStr(path)]), existing).error, InvalidPhrase)
    ensures Mentions(ValidateLog(RMap(map["log_file" := RStr(path)]), existing).error, MissingDirectory)
  {
    var m := map["log_file" := RStr(path)];
    assert LevelOf(m) == RStr("ERROR");
    LevelUpper("ERROR");
    assert SyslogOf(m) == RBool(false);
    assert MissingLogDirectory(m, existing);
  }

  lemma MissingLogDirectoryRejected(path: string, existing: set<string>)
    requires path == "/not/existing/path/to/logfile"
    requires "/not/existing/path/to" !in existing
    ensures ValidateLog(RMap(map["log_file" := RStr(path)]), existing).Err?
    ensures Mentions(ValidateLog(RMap(map["log_file" := RStr(path)]), existing).error, InvalidPhrase)
    ensures Mentions(ValidateLog(RMap(map["log_file" := RStr(path)]), existing).error, MissingDirectory)
  {
    var dir := "/not/existing/path/to";
    assert PathJoin(dir, "logfile") == path;
    DirNameOfJoin(dir, "logfile");
    LogFileRejected(path, existing);
  }

  lemma ExistingLogDirectoryAccepted(path: string, existing: set<string>)
    requires path == "/tmp/logfile"
    requires "/tmp" in existing
    ensures ValidateLog(RMap(map["level" := RStr("DEBUG"), "syslog" := RBool(true), "log_file" := RStr(path)]), existing)
         == Ok(LogConf("DEBUG", true, Some(path)))
  {
    assert PathJoin("/tmp", "logfile") == path;
    DirNameOfJoin("/tmp", "logfile");
    var l := LogConf("DEBUG", true, Some(path));
    assert l.ToRaw() == RMap(map["level" := RStr("DEBUG"), "syslog" := RBool(true), "log_file" := RStr(path)]);
    LogRoundTrip(l, existing);
  }

  /** A log file given without any directory is always rejected, because "" never exists. */
  lemma BareLogFileRejected(f: string, existing: set<string>)
    requires f != "" && '/' !in f
    ensures ValidateLog(RMap(map["log_file" := RStr(f)]), existing).Err?
  {
    DirNameOfBareName(f);
    LogFileRejected(f, existing);
  }
}

=== FILE: validators.dfy ===
/**
 * The four field validators of the configuration (`_validate_host`,
 * `_validate_port`, `_validate_log`, `_validate_graphiql`): each turns a raw
 * value into a checked one or raises.
 */
module Validators {
  import opened Wrappers
  import opened Strings
  import opened Paths
  import opened IpAddress
  import opened Values

  /**
   * What validation raises: the `ValueError` the validators build, with its
   * message, or another Python error (`AttributeError`, `TypeError`) that a
   * value of the wrong type provokes; the latter's text is not modelled.
   */
  datatype Error = ValueError(message: string) | Crash(reason: string)

  /** The log levels `_validate_log` admits. */
  const Levels: seq<string> := ["DEBUG", "INFO", "WARNING", "ERROR"]

  const AllowedLevels := "Allowed values are ('DEBUG', 'INFO', 'WARNING', 'ERROR')"
  const AllowedSyslog := "Allowed values are ('true', 'false')"
  const MissingDirectory := "Base directory does not exist."

  /** The line continuations in the source keep the next line's indentation inside the message. */
  const Indent16 := "                "
  const Indent20 := "                    "

  /** The log settings `_validate_log` returns; `log_file` is present only when set. */
  datatype LogConf = LogConf(level: string, syslog: bool, logFile: Option<string>) {

    /** The dictionary form: "level" and "syslog" always, "log_file" only when there is one. */
    function ToRaw(): (r: Raw)
      ensures r.RMap?
      ensures r.m.Keys == if logFile.Some? then {"level", "syslog", "log_file"} else {"level", "syslog"}
    {
      var base := map["level" := RStr(level), "syslog" := RBool(syslog)];
      RMap(if logFile.Some? then base["log_file" := RStr(logFile.value)] else base)
    }
  }

  /** `DEFAULT_LOG_CONF` */
  const DefaultLog := LogConf("ERROR", false, None)

  /** A log configuration every consumer can rely on. */
  predicate ValidLog(l: LogConf, existing: set<string>) {
    && l.level in Levels
    && (l.logFile.Some? ==> l.logFile.value != "" && Exists(existing, DirName(l.logFile.value)))
  }

  /** The phrase every validation message carries. */
  const InvalidPhrase := "is invalid in configuration"

  /** The `ValueError` for `key`, showing the offending value and an optional hint. */
  function Invalid(key: string, shown: string, hint: string): Error {
    ValueError("'" + key + "' " + InvalidPhrase + ": " + shown + hint)
  }

  /** The error is a `ValueError` whose message contains `text`. */
  predicate Mentions(e: Error, text: string) {
    e.ValueError? && Contains(e.message, text)
  }

  lemma InvalidMentions(key: string, shown: string, hint: string)
    ensures Mentions(Invalid(key, shown, hint), InvalidPhrase)
    ensures Mentions(Invalid(key, shown, hint), shown)
    ensures Mentions(Invalid(key, shown, hint), hint)
  {
    var a := "'" + key + "' ";
    var b := ": ";
    ContainsSelf(InvalidPhrase);
    ContainsLeft(a, InvalidPhrase, InvalidPhrase);
    ContainsRight(a + InvalidPhrase, b, InvalidPhrase);
    ContainsRight(a + InvalidPhrase + b, shown, InvalidPhrase);
    ContainsRight(a + InvalidPhrase + b + shown, hint, InvalidPhrase);
    ContainsSelf(shown);
    ContainsLeft(a + InvalidPhrase + b, shown, shown);
    ContainsRight(a + InvalidPhrase + b + shown, hint, shown);
    ContainsSelf(hint);
    ContainsLeft(a + InvalidPhrase + b + shown, hint, hint);
  }

  /** A message that mentions an indented hint mentions the hint's text. */
  lemma MentionsTail(e: Error, indent: string, text: string)
    requires Mentions(e, indent + text)
    ensures Mentions(e, text)
  {
    ContainsSelf(text);
    ContainsLeft(indent, text, text);
    ContainsTrans(e.message, indent + text, text);
  }

  /** A host the service can bind: "localhost" in any letter case, or an IPv4 or IPv6 address. */
  predicate ValidHost(h: string) {
    Lower(h) == "localhost" || IsIPv4(h) || IsIPv6(h)
  }

  /** `_validate_host`: an accepted host is returned as given, not normalised. */
  function ValidateHost(v: Raw): (r: Result<string, Error>)
    ensures r.Ok? <==> v.RStr? && ValidHost(v.s)
    ensures r.Ok? ==> r.value == v.s
    ensures r.Err? && v.RStr? ==> Mentions(r.error, InvalidPhrase) && Mentions(r.error, v.s)
    ensures !v.RStr? ==> r.Err? && r.error.Crash?
  {
    match v
    case RStr(h) =>
      if Lower(h) == "localhost" then Ok(h)
      else if IsIPv4(h) then Ok(h)
      else if IsIPv6(h) then Ok(h)
      else
        InvalidMentions("host", h, "");
        Err(Invalid("host", h, ""))
    case _ => Err(Crash("host has no lower()"))
  }

  /** `_validate_port`: the bounds are strict on both sides. */
  function ValidatePort(v: Raw): (r: Result<int, Error>)
    ensures r.Ok? <==> v.RInt? && 0 < v.i < 65535
    ensures r.Ok? ==> r.value == v.i
    ensures r.Err? && v.RInt? ==> Mentions(r.error, InvalidPhrase) && Mentions(r.error, IntToString(v.i))
    ensures !v.RInt? ==> r.Err? && r.error.Crash?
  {
    match v
    case RInt(p) =>
      if 0 < p && p < 65535 then Ok(p)
      else
        InvalidMentions("port", IntToString(p), "");
        Err(Invalid("port", IntToString(p), ""))
    case _ => Err(Crash("port cannot be compared with an int"))
  }

  /** The level as `_validate_log` reads it: `log_conf.get("level", "ERROR")`. */
  function LevelOf(m: map<string, Raw>): Raw {
    Get(m, "level", RStr(DefaultLog.level))
  }

  /** The syslog flag as `_validate_log` reads it: `log_conf.get("syslog", False)`. */
  function SyslogOf(m: map<string, Raw>): Raw {
    Get(m, "syslog", RBool(DefaultLog.syslog))
  }

  /** The level is a string whose upper case is an admitted level. */
  predicate LevelAccepted(m: map<string, Raw>) {
    LevelOf(m).RStr? && Upper(LevelOf(m).s) in Levels
  }

  /** A non-empty log file path is given whose directory does not exist. */
  predicate MissingLogDirectory(m: map<string, Raw>, existing: set<string>) {
    var f := Lookup(m, "log_file");
    f.RStr? && f.s != "" && !Exists(existing, DirName(f.s))
  }

  /**
   * `_validate_log`: the level is upper-cased and must be one of `Levels`,
   * the syslog flag must be a boolean, and a log file is kept only when it is
   * given and its directory exists; it is an error when it is given and its
   * directory does not.
   */
  function ValidateLog(v: Raw, existing: set<string>): (r: Result<LogConf, Error>)
    ensures r.Ok? ==> ValidLog(r.value, existing)
    ensures r.Ok? ==> v.RMap? && LevelOf(v.m).RStr? && r.value.level == Upper(LevelOf(v.m).s)
    ensures r.Ok? ==> SyslogOf(v.m) == RBool(r.value.syslog)
    ensures r.Ok? ==> (r.value.logFile.Some? <==> Truthy(Lookup(v.m, "log_file")))
    ensures r.Ok? && r.value.logFile.Some? ==> Lookup(v.m, "log_file") == RStr(r.value.logFile.value)
    ensures (&& v.RMap? && LevelAccepted(v.m) && SyslogOf(v.m).RBool? && !MissingLogDirectory(v.m, existing)
             && (Truthy(Lookup(v.m, "log_file")) ==> Lookup(v.m, "log_file").RStr?))
      ==> r.Ok?
    ensures !v.RMap? ==> r.Err? && r.error.Crash?
    ensures v.RMap? && !LevelOf(v.m).RStr? ==> r.Err? && r.error.Crash?
    ensures v.RMap? && LevelOf(v.m).RStr? && !LevelAccepted(v.m) ==>
      && r.Err? && Mentions(r.error, InvalidPhrase)
      && Mentions(r.error, Upper(LevelOf(v.m).s)) && Mentions(r.error, AllowedLevels)
    ensures v.RMap? && LevelAccepted(v.m) && !SyslogOf(v.m).RBool? ==>
      && r.Err? && Mentions(r.error, InvalidPhrase)
      && Mentions(r.error, Show(SyslogOf(v.m))) && Mentions(r.error, AllowedSyslog)
    ensures v.RMap? && LevelAccepted(v.m) && SyslogOf(v.m).RBool? && MissingLogDirectory(v.m, existing) ==>
      && r.Err? && Mentions(r.error, InvalidPhrase)
      && Mentions(r.error, Lookup(v.m, "log_file").s) && Mentions(r.error, MissingDirectory)
    ensures (&& v.RMap? && LevelAccepted(v.m) && SyslogOf(v.m).RBool?
             && Truthy(Lookup(v.m, "log_file")) && !Lookup(v.m, "log_file").RStr?)
      ==> r.Err? && r.error.Crash?
  {
    match v
    case RMap(m) =>
      var levelRaw := LevelOf(m);
      if !levelRaw.RStr? then Err(Crash("level has no upper()"))
      else
        var level := Upper(levelRaw.s);
        if level !in Levels then
          InvalidMentions("level", level, Indent16 + AllowedLevels);
          MentionsTail(Invalid("level", level, Indent16 + AllowedLevels), Indent16, AllowedLevels);
          Err(Invalid("level", level, Indent16 + AllowedLevels))
        else
          var syslog := SyslogOf(m);
          if !syslog.RBool? then
            InvalidMentions("syslog", Show(syslog), Indent16 + AllowedSyslog);
            MentionsTail(Invalid("syslog", Show(syslog), Indent16 + AllowedSyslog), Indent16, AllowedSyslog);
            Err(Invalid("syslog", Show(syslog), Indent16 + AllowedSyslog))
          else
            var logFile := Lookup(m, "log_file");
            if !Truthy(logFile) then Ok(LogConf(level, syslog.b, None))
            else if !logFile.RStr? then Err(Crash("dirname() of a non-path"))
            else if !Exists(existing, DirName(logFile.s)) then
              InvalidMentions("log_file", logFile.s, Indent20 + MissingDirectory);
              MentionsTail(Invalid("log_file", logFile.s, Indent20 + MissingDirectory), Indent20, MissingDirectory);
              Err(Invalid("log_file", logFile.s, Indent20 + MissingDirectory))
            else Ok(LogConf(level, syslog.b, Some(logFile.s)))
    case _ => Err(Crash("log settings have no get()"))
  }

  /** `_validate_graphiql`: `None` means off, a boolean is kept, anything else is rejected. */
  function ValidateGraphiql(v: Raw): (r: Result<bool, Error>)
    ensures v.RNone? ==> r == Ok(false)
    ensures v.RBool? ==> r == Ok(v.b)
    ensures !v.RNone? && !v.RBool? ==>
      r.Err? && Mentions(r.error, InvalidPhrase) && Mentions(r.error, Show(v))
  {
    match v
    case RNone => Ok(false)
    case RBool(b) => Ok(b)
    case _ =>
      InvalidMentions("graphiql", Show(v), "");
      Err(Invalid("graphiql", Show(v), ""))
  }
}

=== FILE: values.dfy ===
/**
 * The untyped values a parsed YAML document or the command line hands to the
 * configuration code, and the few Python operations applied to them.
 */
module Values {
  import opened Strings

  /** A YAML scalar or mapping: `None`, a string, an integer, a boolean or a string-keyed mapping. */
  datatype Raw = RNone | RStr(s: string) | RInt(i: int) | RBool(b: bool) | RMap(m: map<string, Raw>)

  /** A top-level configuration dictionary, from the file or from the shell. */
  type Config = map<string, Raw>

  /** `m.get(k, default)` */
  function Get(m: map<string, Raw>, k: string, default: Raw): Raw {
    if k in m then m[k] else default
  }

  /** `m.get(k)`: a missing key reads as `None`. */
  function Lookup(m: map<string, Raw>, k: string): Raw {
    Get(m, k, RNone)
  }

  /** Python truthiness: `None`, "", 0, False and the empty mapping are false. */
  predicate Truthy(v: Raw) {
    match v
    case RNone => false
    case RStr(s) => s != ""
    case RInt(i) => i != 0
    case RBool(b) => b
    case RMap(m) => m != map[]
  }

  /** `str(v)` as an f-string prints it; a mapping prints as a placeholder. */
  function Show(v: Raw): string {
    match v
    case RNone => "None"
    case RStr(s) => s
    case RInt(i) => IntToString(i)
    case RBool(b) => if b then "True" else "False"
    case RMap(_) => "{...}"
  }
}

=== FILE: wrappers.dfy ===
/** Failure-compatible wrappers used throughout the model. */
module Wrappers {

  /** An optional value; Python's `None` on the typed side of the model. */
  datatype Option<+T> = None | Some(value: T)

  /** The outcome of an operation that can raise: `Ok` carries the value, `Err` the exception. */
  datatype Result<+T, +E> = Ok(value: T) | Err(error: E) {

    predicate IsFailure() {
      Err?
    }

    function PropagateFailure<U>(): Result<U, E>
      requires Err?
    {
      Err(error)
    }

    function Extract(): T
      requires Ok?
    {
      value
    }
  }
}
